=== FILE: README.md ===
# Task orchestration model (nalanda-test)

A Dafny model of the three services that hold the non-UI logic of the
nalanda-test Angular application:

- **Task engine** (`TaskEngine`, `engine.dfy`). This is the task table in insertion order plus the set of ids that hold one of the three execution slots. Each operation is a pure transition, and the alerts it raises come back beside the new engine. The operations are:
  - `addTask`, `updateTask`, `cancelTask`, `deleteTask`, `retryTask` and `updateCreateAt`;
  - the capacity check;
  - the execution of a task, split into three events:
    - `TryExecute`, the eager dispatch;
    - `ResolveRun`, the end of the simulated run, where the random draw is the `succeeded` input;
    - `WatchdogFires`, the stall timer armed at dispatch.
- **Scheduler** (`TaskScheduler`, `scheduler.dfy`). It covers the running flag with idempotent `Start`/`Stop` and the tick. The tick is a pure function from a table snapshot, the clock and a capacity oracle to the ids it dispatches. The oracle's answer to the k-th question of a tick is `capacity(k)`. The tick:
  - keeps the pending tasks whose dependencies are completed and whose start time is reached;
  - stable-sorts them by ascending priority;
  - dispatches them in order until the oracle first refuses.
- **Alert service** (`Alerts`, `alerts.dfy`). This is an append-only history with duplicate suppression. The key is the string `severity|summary|detail`. It is compared with a separately remembered key, and the 500 ms window is measured from the last recorded event. The wall clock is a `now` parameter.
- **Orchestration** (`orchestration.dfy`). It wires the three services together:
  - a scheduling pass that asks the engine itself for capacity before each dispatch (a loop);
  - the delivery of the engine's alert requests to the alert service.

`domain.dfy` holds the shared records: `Task`, its six states, priorities 1..5, and the alert records.

Where a reader might assume otherwise, the model follows the code as written:
- `addTask` does not reject an id that is already in the table.
- `retryTask` increments `retries`; it does not reset it to 1.
- A dependency whose id is absent from the snapshot counts as unmet.
- A success does not propagate anything to the tasks that depend on it.
- `updateCreateAt` changes only `startAt` and leaves the state alone.
- The engine raises no backlog or idle alerts.
- The duplicate key is compared with the key of the last accepted de-duplicating emission, not with the key of the previous event.

A few behaviours of the code that the model makes visible:
- The window is measured from the last history entry, even when that entry came from an emission with another key (`UnrelatedEmitExtendsWindow`).
- Two alerts with different fields share a key when a summary contains `|` (`KeyCollision`).
- `cancelTask` raises the final-failure wording ("Falló …", "Sin más reintentos") rather than a cancellation notice.

## Model

| member | source | states |
|---|---|---|
| Alerts.Emit | src/app/services/alerts/alerts.service.ts:17-27 | An emission either leaves the history as it is or appends exactly the event stamped `now`. Without suppression it always appends and keeps the remembered key. With suppression it is dropped, changing nothing, exactly when its key equals the remembered key, the history is non-empty and `now` is less than 500 ms after the last event's time. Otherwise it appends and remembers the new key. |
| Alerts.Notify | src/app/services/alerts/alerts.service.ts:29-32 | A helper emission changes nothing exactly when its key (severity, summary and detail joined by bars) equals the remembered key, the history is non-empty and the last event is less than 500 ms old. Otherwise it appends one event with the helper's severity, the summary, the detail and the task id, stamped `now`, and remembers that key. |
| Alerts.Raise | src/app/services/alerts/alerts.service.ts:29-32 | Raising a request through the helper of its severity is the de-duplicating emission of that request. |
| Alerts.Deliver | src/app/services/alerts/alerts.service.ts:17-32 | Feeding requests through the helpers keeps the old history as a prefix and adds at most one event per request. No request leaves the bus unchanged; a single request is exactly its de-duplicating emission. |
| Alerts.DeliverRecordsRequests | src/app/services/alerts/alerts.service.ts:17-32 | Every event a delivery appends is one of the requests, stamped `now`. |
| Alerts.DeliverConcat | src/app/services/alerts/alerts.service.ts:17-32 | Delivering two batches one after the other is the same as delivering them together. |
| Alerts.EmitKeepsChronological | src/app/services/alerts/alerts.service.ts:36-38 | With a clock that never runs backwards, history timestamps stay non-decreasing. |
| Alerts.KeyDeterminesFields | src/app/services/alerts/alerts.service.ts:40-42 | For summaries without a vertical bar, two alerts share a key exactly when severity, summary and detail agree. An absent detail equals the empty one, and the task id and time never matter. |
| Alerts.KeyCollision | src/app/services/alerts/alerts.service.ts:40-42 | Two different alerts have the same key: one with summary "a" + bar + "b" and detail "c", the other with summary "a" and detail "b" + bar + "c". |
| Alerts.ClearedBusAcceptsNext | src/app/services/alerts/alerts.service.ts:34-61 | Clearing keeps the remembered key, and the first emission after a clear is always recorded. |
| Alerts.RepeatWithinWindowSuppressed | src/app/services/alerts/alerts.service.ts:44-56 | An accepted alert repeated less than 500 ms later is dropped. |
| Alerts.RepeatAfterWindowKept | src/app/services/alerts/alerts.service.ts:52-56 | An accepted alert repeated 500 ms or more later is recorded again. |
| Alerts.UnrelatedEmitExtendsWindow | src/app/services/alerts/alerts.service.ts:52-61 | An alert repeated 800 ms after its first emission is still dropped when a non-de-duplicating alert with another key was recorded 400 ms after it. |
| TaskEngine.IndexOf | src/app/services/task-engine/task-engine.service.ts:194-196 | The lookup finds the first entry with the id. It finds nothing exactly when no entry has that id. |
| TaskEngine.AddTask | src/app/services/task-engine/task-engine.service.ts:28-31 | Adding appends the task at the end and keeps every existing entry and the active set. |
| TaskEngine.AddThenGet | src/app/services/task-engine/task-engine.service.ts:28-31 | After an add, the lookup of the added id finds the older entry if there was one, otherwise the new task. Lookups of other ids are unchanged. |
| TaskEngine.UpdateTask | src/app/services/task-engine/task-engine.service.ts:33-40 | An update replaces only the first entry with the id and keeps the length and every other position. An unknown id leaves the table unchanged. |
| TaskEngine.UpdateThenGet | src/app/services/task-engine/task-engine.service.ts:33-40 | After an update of a known id, the lookup returns the updated task. Every other id finds what it found before. |
| TaskEngine.CancelTask | src/app/services/task-engine/task-engine.service.ts:42-49 | A pending or in-progress task becomes cancelled, with every other field kept, and exactly one failure alert is raised. Any other state or an unknown id changes nothing and raises nothing. The active set is untouched. |
| TaskEngine.Survivors | src/app/services/task-engine/task-engine.service.ts:52 | The filtered table has no entry with the id, contains only entries of the table, and keeps every entry with another id. |
| TaskEngine.DeleteTask | src/app/services/task-engine/task-engine.service.ts:51-58 | After a delete, no entry has the id and no dependency list mentions it. Each remaining entry equals the corresponding survivor in everything but its dependency list, and that list is the survivor's list with only the deleted id's entries removed. |
| TaskEngine.SurvivorsOfConcat | src/app/services/task-engine/task-engine.service.ts:52 | Filtering distributes over concatenation, so survivors keep their relative order. |
| TaskEngine.DeleteOfConcat | src/app/services/task-engine/task-engine.service.ts:51-58 | Deleting from a concatenated table equals concatenating the deletions. |
| TaskEngine.DeleteIdempotent | src/app/services/task-engine/task-engine.service.ts:51-58 | Deleting twice equals deleting once. |
| TaskEngine.RetryTask | src/app/services/task-engine/task-engine.service.ts:60-73 | A failed task with a retry left becomes pending with one more retry and raises "Intento N/3". With no retry left it stays failed, retries unchanged, and raises the failure alert. Any other state or an unknown id is a no-op. |
| TaskEngine.UpdateCreateAt | src/app/services/task-engine/task-engine.service.ts:75-79 | Only the start time of the first entry with the id changes; its state and every other entry are kept. An unknown id changes nothing. |
| TaskEngine.TryExecute | src/app/services/task-engine/task-engine.service.ts:86-101 | When the task exists, is pending and fewer than three slots are held, the dispatch takes a slot for its id and sets it in progress. Otherwise the engine is unchanged. |
| TaskEngine.TryExecuteOnlyStartsPending | src/app/services/task-engine/task-engine.service.ts:82-101 | A dispatch adds at most the dispatched id to the active set and only moves a pending entry to in-progress. With no free slot it does nothing. |
| TaskEngine.ResolveRun | src/app/services/task-engine/task-engine.service.ts:110-177 | The id always leaves the active set. The outcome depends on the task. Absent: no table change and no alert. Cancelled: only the "cancelada" notice. Success: completed with `completed` set, plus a success alert. Failure with a retry left: pending with one more retry, plus "Intento N/3". Failure without a retry: failed with retries unchanged, plus the failure alert. |
| TaskEngine.WatchdogFires | src/app/services/task-engine/task-engine.service.ts:183-192 | Only a task currently in progress becomes blocked, with a warning naming twice the armed duration. The slot is never released. |
| TaskEngine.ApplyPreservesValid | src/app/services/task-engine/task-engine.service.ts:82-177 | No event sets retries outside 0..2, leaves a completed task without the completed flag, or lets more than three slots be held. |
| TaskEngine.CancelledStaysCancelled | src/app/services/task-engine/task-engine.service.ts:106-151 | A cancelled task is still found cancelled after any event other than its own deletion, including the deletion of any other id. |
| TaskEngine.SurvivorsKeepLookup | src/app/services/task-engine/task-engine.service.ts:52 | Filtering out one id leaves the lookup of every other id unchanged. |
| TaskEngine.DeleteOtherKeepsLookup | src/app/services/task-engine/task-engine.service.ts:51-58 | Deleting another id keeps a task findable, with the same state. |
| TaskEngine.SuccessfulRun | src/app/services/task-engine/task-engine.service.ts:86-141 | A fresh task dispatched and resolved successfully ends completed, with one success alert, and its slot is returned. |
| TaskEngine.FailedFirstRun | src/app/services/task-engine/task-engine.service.ts:145-164 | A first failed run leaves the task pending with one retry and raises "Intento 1/3". |
| TaskEngine.ExhaustedRun | src/app/services/task-engine/task-engine.service.ts:145-168 | A failed run with both retries used leaves the task failed, retries still 2, with the failure alert. |
| TaskEngine.WatchdogBlocksStalledRun | src/app/services/task-engine/task-engine.service.ts:183-192 | A dispatched task whose watchdog fires first is blocked, keeps its slot and raises "Excedió <2·duration>ms". |
| TaskScheduler.LastIndexOf | src/app/services/task-scheduler/task-scheduler.service.ts:60 | The by-id map lookup finds the last entry with the id, and finds nothing exactly when no entry has it. |
| TaskScheduler.EligibleInSpec | src/app/services/task-scheduler/task-scheduler.service.ts:44-47 | The filter keeps every eligible entry as often as it occurs and nothing else. Every kept entry is eligible. |
| TaskScheduler.EligibleInOfConcat | src/app/services/task-scheduler/task-scheduler.service.ts:44-47 | Filtering a concatenation is the concatenation of the filtered parts, so eligible entries keep their snapshot order. |
| TaskScheduler.NoDependenciesMet | src/app/services/task-scheduler/task-scheduler.service.ts:58 | An empty dependency list is met. |
| TaskScheduler.MissingDependencyUnmet | src/app/services/task-scheduler/task-scheduler.service.ts:60-61 | A dependency whose id is absent from the snapshot is unmet. |
| TaskScheduler.DependencyReleasesOnCompletion | src/app/services/task-scheduler/task-scheduler.service.ts:57-62 | A task depending on one pending task is held back, and is released once that task is completed in the snapshot. |
| TaskScheduler.InsertPermutes | src/app/services/task-scheduler/task-scheduler.service.ts:48 | Insertion adds exactly the inserted task. |
| TaskScheduler.InsertKeepsSorted | src/app/services/task-scheduler/task-scheduler.service.ts:48 | Insertion keeps a priority-sorted list sorted. |
| TaskScheduler.SortSpec | src/app/services/task-scheduler/task-scheduler.service.ts:48 | The sort returns a permutation of its input, in non-decreasing priority. |
| TaskScheduler.SortIsStable | src/app/services/task-scheduler/task-scheduler.service.ts:48 | For every priority, the entries of that priority come out in their input order. |
| TaskScheduler.Fill | src/app/services/task-scheduler/task-scheduler.service.ts:51-54 | The dispatch loop sends plan entries in order, each after a granted capacity question, and stops at the first refusal. |
| TaskScheduler.Tick | src/app/services/task-scheduler/task-scheduler.service.ts:39-55 | A tick dispatches a prefix of the sorted eligible tasks. Each id is sent after capacity was granted, and a shorter prefix means capacity was refused for the next one. |
| TaskScheduler.TickDispatchesEligible | src/app/services/task-scheduler/task-scheduler.service.ts:43-47 | Every dispatched id belongs to a snapshot entry that is pending, has its dependencies completed and has reached its start time. |
| TaskScheduler.DispatchOrder | src/app/services/task-scheduler/task-scheduler.service.ts:48-54 | The dispatched tasks come in non-decreasing priority, and tasks of equal priority keep snapshot order. |
| TaskScheduler.UnlimitedCapacityDispatchesAll | src/app/services/task-scheduler/task-scheduler.service.ts:44-54 | With capacity never refused, every eligible task is dispatched, as often as it occurs in the snapshot, and nothing else. |
| TaskScheduler.PriorityOrderExample | src/app/services/task-scheduler/task-scheduler.service.ts:44-54 | Eligible tasks of priority 5, 1 and 3 are dispatched as 1, 3, 5. |
| TaskScheduler.Start | src/app/services/task-scheduler/task-scheduler.service.ts:14-22 | Starting leaves the scheduler running. A second start changes nothing, and a first start adds exactly one subscription. |
| TaskScheduler.Stop | src/app/services/task-scheduler/task-scheduler.service.ts:24-32 | Stopping leaves it stopped with no subscription. Stopping a stopped scheduler changes nothing. |
| TaskScheduler.RunKeepsSingleSubscription | src/app/services/task-scheduler/task-scheduler.service.ts:14-32 | Over any sequence of starts and stops there is one subscription while running and none while stopped. |
| TaskScheduler.SnapshotProcessedOnce | src/app/services/task-scheduler/task-scheduler.service.ts:14-40 | After any starts and stops, a snapshot is processed by exactly one tick while running and by none while stopped. |
| TaskScheduler.StopThenStartResumes | src/app/services/task-scheduler/task-scheduler.service.ts:24-40 | A stopped scheduler dispatches nothing, and a start after a stop resumes with one tick per snapshot. |
| Orchestration.DispatchInOrder | src/app/services/task-scheduler/task-scheduler.service.ts:51-54 | Dispatching against the engine sends a prefix of the plan, in order, and stops only when the engine has no free slot. The active set grows only by dispatched ids and stays at most three. Tasks change only from pending to in-progress. Every dispatched id that names an entry leaves that entry no longer pending, and every entry the pass starts belongs to a task holding a slot. |
| Orchestration.DispatchStep | src/app/services/task-scheduler/task-scheduler.service.ts:51-54 | Dispatching the next plan entry while a slot is free keeps everything the pass has established: a prefix of the plan, the slot bound, only pending-to-in-progress changes, handed-over tasks past pending, and started entries holding slots. |
| Orchestration.StepStartsTask | src/app/services/task-engine/task-engine.service.ts:86-101 | After a dispatch with a free slot, the dispatched task and every task handed over before it are past pending. |
| Orchestration.StepHoldsSlot | src/app/services/task-engine/task-engine.service.ts:99-101 | A dispatch changes an entry only when it takes a slot for that entry's id, so every started entry holds a slot. |
| Orchestration.ScheduleOnEngine | src/app/services/task-scheduler/task-scheduler.service.ts:39-55 | A pass over the engine's own table dispatches a prefix of the sorted eligible tasks, with the same frame guarantees as the loop above; every task it hands over ends up no longer pending, and every entry it starts holds a slot. |
| Orchestration.Handle | src/app/services/task-engine/task-engine.service.ts:42-192 | An engine event together with its alert delivery leaves the engine as the event alone would. It appends at most one alert to the history, keeping the old history as a prefix. An event that raises nothing leaves the bus unchanged; one that raises a request emits exactly that request with de-duplication. |
| Orchestration.HandleKeepsChronological | src/app/services/alerts/alerts.service.ts:17-38 | With a clock that never runs backwards, the history stays in time order across engine events. |

## Left out

- Timers and the order in which they fire are left to the caller. `timer(duration)`, the watchdog's `setTimeout` and the `clearTimeout` in `finalize` are not modelled. Dispatch, resolution and the watchdog are separate events, and the caller chooses their order, so `WatchdogFires` may be applied after a resolution even though the source clears the watchdog at that point. In the source the watchdog is armed for twice the duration while the run resolves after the duration itself, and the resolution clears it; so a task blocked by the watchdog, as in `WatchdogBlocksStalledRun`, arises there only with a zero duration or a badly delayed event loop.
- `Math.random()` and the 0.7 threshold are replaced by the `succeeded` input of `ResolveRun`.
- Synchronous re-entrancy is not modelled. In the source, an `updateTask` emission inside `tryExecute` re-enters the scheduler's tick before `finalize` runs, and `finalize` then removes the id from the active set even when a new run of the same id has started. Every operation here is atomic.
- RxJS streams are not modelled:
  - `tasks$`, the alert `stream$` and `history$` subjects, and the microtask re-emission in `finalize`;
  - the unused `alerts$`/`getAlerts`;
  - `getTasks`, `asStream` and `asHistory`.
  The live alert stream delivers exactly what is appended to the history, so the history stands for both.
- `TaskEngine.ResolveRun` does not check that the task is in progress, because the source does not either. A resolution whose dispatch never happened is not excluded.
- Numbers are integers. Durations, timestamps and `startAt` are integer milliseconds; `Date` objects and non-integer durations are not modelled.
- `retries ?? 0` and `dependencies ?? []` are not modelled: the record type makes both fields mandatory, so a missing value never arises.
- The HTTP loader (`TasksApiService`) and every UI component are not part of this model. They only fetch data and delegate to the engine.
- `ngOnDestroy` is a plain `stop()` and has no member of its own.
- `TaskScheduler.Tick` reads the capacity oracle as a function of the question's position in the tick. It does not model an engine whose answer changes because of the dispatches themselves; `Orchestration.ScheduleOnEngine` covers that case against the engine's own state.

=== FILE: alerts.dfy ===
/** The alert service: an append-only history of accepted alerts, with
    suppression of an alert that repeats the remembered key within 500 ms.
    The wall clock is the `now` parameter of every emission. The live stream
    delivers exactly the events that are appended to the history, so the
    history stands for both. */
module Alerts {
  import opened Domain

  /** Width of the duplicate-suppression window, in milliseconds. */
  const AvoidDuplicatesMs: int := 500

  /** `lastAlertKey` is the key of the last accepted de-duplicating emission;
      it is kept apart from the history and survives `ClearHistory`. */
  datatype AlertBus = AlertBus(history: seq<AlertEvent>, lastAlertKey: string)

  /** The service as constructed: no history and the empty key. */
  const Fresh: AlertBus := AlertBus([], "")

  function SeverityName(s: Severity): string {
    match s
    case Success => "success"
    case Info => "info"
    case Warn => "warn"
    case Error => "error"
  }

  /** The duplicate key `severity|summary|detail`, an absent detail written
      as the empty string. The task id and the timestamp are not part of it. */
  function AlertKey(a: AlertEvent): string {
    SeverityName(a.severity) + "|" + a.summary + "|" + a.detail.GetOr("")
  }

  function GetLastAlert(bus: AlertBus): Option<AlertEvent> {
    if |bus.history| > 0 then Some(bus.history[|bus.history| - 1]) else None
  }

  /** The candidate is recent when it falls within the window after the last
      RECORDED event, whatever that event's key. */
  predicate IsRecentDuplicate(bus: AlertBus, ts: int) {
    match GetLastAlert(bus)
    case None => false
    case Some(last) => ts - last.ts < AvoidDuplicatesMs
  }

  predicate IsDuplicateAlert(bus: AlertBus, a: AlertEvent, key: string) {
    key == bus.lastAlertKey && IsRecentDuplicate(bus, a.ts)
  }

  /** Emission of one alert at time `now`. */
  function Emit(bus: AlertBus, data: AlertData, now: int, avoidDuplicates: bool): (r: AlertBus)
    ensures r.history == bus.history || r.history == bus.history + [Stamp(data, now)]
    ensures !avoidDuplicates ==>
      r == AlertBus(bus.history + [Stamp(data, now)], bus.lastAlertKey)
    ensures avoidDuplicates ==>
      var key := AlertKey(Stamp(data, now));
      var suppressed := key == bus.lastAlertKey && |bus.history| > 0
        && now - bus.history[|bus.history| - 1].ts < AvoidDuplicatesMs;
      (suppressed ==> r == bus)
      && (!suppressed ==> r == AlertBus(bus.history + [Stamp(data, now)], key))
  {
    var alert := Stamp(data, now);
    if avoidDuplicates then
      var key := AlertKey(alert);
      if IsDuplicateAlert(bus, alert, key) then bus
      else AlertBus(bus.history + [alert], key)
    else
      AlertBus(bus.history + [alert], bus.lastAlertKey)
  }

  /** The `success`, `info`, `warn` and `error` helpers: an emission with the
      helper's own severity and duplicate suppression switched on. The alert
      is recorded, with the given fields and stamped `now`, exactly when it
      is not a duplicate of the remembered key within the window. */
  function Notify(bus: AlertBus, severity: Severity, summary: string, detail: Option<string>,
                  taskId: Option<string>, now: int): (r: AlertBus)
    ensures var key := AlertKey(AlertEvent(severity, summary, detail, taskId, now));
      var duplicate := key == bus.lastAlertKey && |bus.history| > 0
        && now - bus.history[|bus.history| - 1].ts < AvoidDuplicatesMs;
      && (duplicate ==> r == bus)
      && (!duplicate ==>
            r == AlertBus(bus.history + [AlertEvent(severity, summary, detail, taskId, now)], key))
  {
    Emit(bus, AlertData(severity, summary, detail, taskId), now, true)
  }

  function EmitSuccess(bus: AlertBus, summary: string, detail: Option<string>, taskId: Option<string>, now: int): AlertBus {
    Notify(bus, Success, summary, detail, taskId, now)
  }

  function EmitInfo(bus: AlertBus, summary: string, detail: Option<string>, taskId: Option<string>, now: int): AlertBus {
    Notify(bus, Info, summary, detail, taskId, now)
  }

  function EmitWarn(bus: AlertBus, summary: string, detail: Option<string>, taskId: Option<string>, now: int): AlertBus {
    Notify(bus, Warn, summary, detail, taskId, now)
  }

  function EmitError(bus: AlertBus, summary: string, detail: Option<string>, taskId: Option<string>, now: int): AlertBus {
    Notify(bus, Error, summary, detail, taskId, now)
  }

  /** Raises an alert request through the helper of its severity; whichever
      helper it takes, the effect is the de-duplicating emission of the request. */
  function Raise(bus: AlertBus, d: AlertData, now: int): (r: AlertBus)
    ensures r == Emit(bus, d, now, true)
  {
    match d.severity
    case Success => EmitSuccess(bus, d.summary, d.detail, d.taskId, now)
    case Info => EmitInfo(bus, d.summary, d.detail, d.taskId, now)
    case Warn => EmitWarn(bus, d.summary, d.detail, d.taskId, now)
    case Error => EmitError(bus, d.summary, d.detail, d.taskId, now)
  }

  /** Empties the history; the remembered key is kept. */
  function ClearHistory(bus: AlertBus): AlertBus {
    bus.(history := [])
  }

  /** Feeds a sequence of alert requests, in order, through the helpers. No
      request records nothing, a single request is one de-duplicating
      emission, and earlier history is kept. */
  function Deliver(bus: AlertBus, issued: seq<AlertData>, now: int): (r: AlertBus)
    ensures |issued| == 0 ==> r == bus
    ensures |issued| == 1 ==> r == Emit(bus, issued[0], now, true)
    ensures |bus.history| <= |r.history| <= |bus.history| + |issued|
    ensures r.history[..|bus.history|] == bus.history
    decreases |issued|
  {
    if |issued| == 0 then bus
    else
      var next := Raise(bus, issued[0], now);
      assert next.history[..|bus.history|] == bus.history;
      var r := Deliver(next, issued[1..], now);
      assert r.history[..|bus.history|] == r.history[..|next.history|][..|bus.history|];
      r
  }

  /** Every event a delivery records is one of the requests, stamped `now`. */
  lemma {:induction false} DeliverRecordsRequests(bus: AlertBus, issued: seq<AlertData>, now: int)
    ensures var r := Deliver(bus, issued, now);
      forall k :: |bus.history| <= k < |r.history| ==>
        exists j :: 0 <= j < |issued| && r.history[k] == Stamp(issued[j], now)
    decreases |issued|
  {
    if |issued| > 0 {
      var next := Raise(bus, issued[0], now);
      var r := Deliver(bus, issued, now);
      assert r == Deliver(next, issued[1..], now);
      DeliverRecordsRequests(next, issued[1..], now);
      forall k | |bus.history| <= k < |r.history|
        ensures exists j :: 0 <= j < |issued| && r.history[k] == Stamp(issued[j], now)
      {
        if k < |next.history| {
          assert next.history[k] == r.history[k];
          assert r.history[k] == Stamp(issued[0], now);
        } else {
          var j :| 0 <= j < |issued[1..]| && r.history[k] == Stamp(issued[1..][j], now);
          assert issued[1..][j] == issued[j + 1];
        }
      }
    }
  }

  /** Delivering two batches one after the other is delivering them together. */
  lemma {:induction false} DeliverConcat(bus: AlertBus, a: seq<AlertData>, b: seq<AlertData>, now: int)
    ensures Deliver(bus, a + b, now) == Deliver(Deliver(bus, a, now), b, now)
    decreases |a|
  {
    if |a| == 0 {
      assert a + b == b;
    } else {
      assert (a + b)[0] == a[0] && (a + b)[1..] == a[1..] + b;
      DeliverConcat(Raise(bus, a[0], now), a[1..], b, now);
    }
  }

  /** History timestamps never decrease. */
  ghost predicate Chronological(h: seq<AlertEvent>) {
    forall i, j :: 0 <= i < j < |h| ==> h[i].ts <= h[j].ts
  }

  /** With a clock that does not run backwards, the history stays in time order. */
  lemma EmitKeepsChronological(bus: AlertBus, data: AlertData, now: int, avoidDuplicates: bool)
    requires Chronological(bus.history)
    requires |bus.history| > 0 ==> bus.history[|bus.history| - 1].ts <= now
    ensures Chronological(Emit(bus, data, now, avoidDuplicates).history)
  {
    var h := bus.history;
    var r := Emit(bus, data, now, avoidDuplicates).history;
    if r != h {
      assert r == h + [Stamp(data, now)];
      forall i, j | 0 <= i < j < |r|
        ensures r[i].ts <= r[j].ts
      {
        if j == |h| {
          assert h[i].ts <= h[|h| - 1].ts;
        }
      }
    }
  }

  /** Two summaries free of '|' are recovered from `s + "|" + d`. */
  lemma SplitAtSeparator(s1: string, d1: string, s2: string, d2: string)
    requires '|' !in s1 && '|' !in s2
    requires s1 + "|" + d1 == s2 + "|" + d2
    ensures s1 == s2 && d1 == d2
  {
    var k1 := s1 + "|" + d1;
    var k2 := s2 + "|" + d2;
    assert k1[|s1|] == '|' && k2[|s2|] == '|';
    assert forall i :: 0 <= i < |s1| ==> k1[i] == s1[i];
    assert forall i :: 0 <= i < |s2| ==> k2[i] == s2[i];
    assert |s1| == |s2|;
    assert s1 == k1[..|s1|] == k2[..|s2|] == s2;
    assert d1 == k1[|s1| + 1..] == k2[|s2| + 1..] == d2;
  }

  /** When summaries contain no '|', two alerts share a key exactly when they
      agree on severity, summary and detail (absent detail equal to empty);
      in particular the task id and the timestamp never matter. */
  lemma KeyDeterminesFields(a: AlertEvent, b: AlertEvent)
    requires '|' !in a.summary && '|' !in b.summary
    ensures AlertKey(a) == AlertKey(b) <==>
      (a.severity == b.severity && a.summary == b.summary && a.detail.GetOr("") == b.detail.GetOr(""))
  {
    if AlertKey(a) == AlertKey(b) {
      var na := SeverityName(a.severity);
      var nb := SeverityName(b.severity);
      assert AlertKey(a)[0] == na[0];
      assert AlertKey(b)[0] == nb[0];
      assert a.severity == b.severity;
      var ra := a.summary + "|" + a.detail.GetOr("");
      var rb := b.summary + "|" + b.detail.GetOr("");
      assert AlertKey(a) == na + "|" + ra;
      assert AlertKey(b) == na + "|" + rb;
      assert ra == AlertKey(a)[|na| + 1..];
      assert rb == AlertKey(b)[|na| + 1..];
      SplitAtSeparator(a.summary, a.detail.GetOr(""), b.summary, b.detail.GetOr(""));
    }
  }

  /** Because the key is a plain concatenation, a '|' inside the summary lets
      two different alerts share a key. */
  lemma KeyCollision()
    ensures var a := AlertEvent(Error, "a|b", Some("c"), None, 0);
            var b := AlertEvent(Error, "a", Some("b|c"), None, 0);
            a != b && AlertKey(a) == AlertKey(b)
  {
    var a := AlertEvent(Error, "a|b", Some("c"), None, 0);
    var b := AlertEvent(Error, "a", Some("b|c"), None, 0);
    assert a.summary != b.summary by { assert |a.summary| != |b.summary|; }
    assert AlertKey(a) == "error|a|b|c" == AlertKey(b);
  }

  /** After a clear there is no last event, so the next emission is never suppressed. */
  lemma ClearedBusAcceptsNext(bus: AlertBus, data: AlertData, now: int, avoidDuplicates: bool)
    ensures Emit(ClearHistory(bus), data, now, avoidDuplicates).history == [Stamp(data, now)]
    ensures ClearHistory(bus).lastAlertKey == bus.lastAlertKey
  {
  }

  /** An accepted alert repeated less than 500 ms later is dropped. */
  lemma RepeatWithinWindowSuppressed(bus: AlertBus, data: AlertData, t1: int, t2: int)
    requires t2 - t1 < AvoidDuplicatesMs
    requires |Emit(bus, data, t1, true).history| == |bus.history| + 1
    ensures Emit(Emit(bus, data, t1, true), data, t2, true) == Emit(bus, data, t1, true)
  {
  }

  /** An accepted alert repeated 500 ms or more later is recorded again. */
  lemma RepeatAfterWindowKept(bus: AlertBus, data: AlertData, t1: int, t2: int)
    requires t2 - t1 >= AvoidDuplicatesMs
    requires |Emit(bus, data, t1, true).history| == |bus.history| + 1
    ensures Emit(Emit(bus, data, t1, true), data, t2, true).history
         == bus.history + [Stamp(data, t1), Stamp(data, t2)]
  {
  }

  /** The window is measured from the last recorded event even when that event
      came from a non-de-duplicating emission with another key: an alert
      repeated 800 ms after its first emission is still dropped when an
      unrelated alert was recorded in between. */
  lemma UnrelatedEmitExtendsWindow()
    ensures var a := AlertData(Warn, "A", None, None);
            var b := AlertData(Info, "B", None, None);
            var b1 := Emit(Fresh, a, 0, true);
            var b2 := Emit(b1, b, 400, false);
            |b2.history| == 2 && Emit(b2, a, 800, true) == b2
  {
    var a := AlertData(Warn, "A", None, None);
    assert AlertKey(Stamp(a, 0)) == "warn|A|";
  }
}

=== FILE: domain.dfy ===
/** Shared data model of the task orchestrator: the task record, its six
    lifecycle states, and the alert records exchanged between the engine and
    the alert bus. Timestamps and durations are integer milliseconds. */
module Domain {

  /** An optional value, standing for a TypeScript field that may be `undefined`. */
  datatype Option<+T> = None | Some(value: T) {
    /** The value, or `default` when absent (the `??` operator). */
    function GetOr(default: T): T {
      match this
      case Some(v) => v
      case None => default
    }
  }

  /** The six task states; the source spells them 'pending', 'in-progress', ... */
  datatype TaskState = Pending | InProgress | Completed | Failed | Cancelled | Blocked

  /** Task priorities are the literal union 1 | 2 | 3 | 4 | 5; 1 is the highest. */
  type Priority = p: int | 1 <= p <= 5 witness 1

  /** A task. `dependencies` holds value snapshots of other tasks; only their
      ids matter to the engine and the scheduler. `startAt` is absent when the
      task may start at once. */
  datatype Task = Task(
    id: string,
    title: string,
    completed: bool,
    dependencies: seq<Task>,
    priority: Priority,
    duration: int,
    startAt: Option<int>,
    state: TaskState,
    retries: int)

  datatype Severity = Success | Info | Warn | Error

  /** An alert before the bus stamps it: the argument of `emit`. */
  datatype AlertData = AlertData(
    severity: Severity,
    summary: string,
    detail: Option<string>,
    taskId: Option<string>)

  /** An alert as delivered and recorded, stamped with its emission time. */
  datatype AlertEvent = AlertEvent(
    severity: Severity,
    summary: string,
    detail: Option<string>,
    taskId: Option<string>,
    ts: int)

  function Stamp(a: AlertData, ts: int): AlertEvent {
    AlertEvent(a.severity, a.summary, a.detail, a.taskId, ts)
  }

  /** Decimal rendering of an integer, as a template literal renders a whole number. */
  function IntToString(n: int): string {
    if n < 0 then "-" + NatToString(-n) else NatToString(n)
  }

  function NatToString(n: nat): string
    decreases n
  {
    if n < 10 then [DigitChar(n)] else NatToString(n / 10) + [DigitChar(n % 10)]
  }

  function DigitChar(d: nat): char
    requires d < 10
  {
    "0123456789"[d]
  }
}

=== FILE: engine.dfy ===
/** The task engine: a table of tasks in insertion order plus the set of ids
    holding an execution slot. Every operation is a pure transition; the ones
    that raise alerts return them, in order, beside the new engine, as the
    requests the engine hands to the alert service. The timers of a run are
    separate events: `TryExecute` is the eager part of a dispatch,
    `ResolveRun` the end of the simulated run (the random draw is the
    `succeeded` input) and `WatchdogFires` the stall timer. */
module TaskEngine {
  import opened Domain

  /** At most this many ids hold an execution slot. */
  const MaxConcurrency: int := 3

  /** A run that fails with this many retries already consumed is final. */
  const MaxRetries: int := 2

  datatype Engine = Engine(tasks: seq<Task>, active: set<string>)

  /** The result of an operation: the new engine and the alerts it requested. */
  datatype Step = Step(engine: Engine, issued: seq<AlertData>)

  // ---------------------------------------------------------------------------
  // Lookup by id: the FIRST entry with that id, as `find`/`findIndex` do.
  // ---------------------------------------------------------------------------

  function FindFrom(ts: seq<Task>, id: string, k: nat): (r: Option<nat>)
    requires k <= |ts|
    ensures r.Some? ==> k <= r.value < |ts| && ts[r.value].id == id
    ensures r.Some? ==> forall j :: k <= j < r.value ==> ts[j].id != id
    ensures r.None? ==> forall j :: k <= j < |ts| ==> ts[j].id != id
    decreases |ts| - k
  {
    if k == |ts| then None
    else if ts[k].id == id then Some(k)
    else FindFrom(ts, id, k + 1)
  }

  /** Position of the first entry with this id. */
  function IndexOf(ts: seq<Task>, id: string): (r: Option<nat>)
    ensures r.Some? ==> r.value < |ts| && ts[r.value].id == id
    ensures r.Some? ==> forall j :: 0 <= j < r.value ==> ts[j].id != id
    ensures r.None? <==> forall j :: 0 <= j < |ts| ==> ts[j].id != id
  {
    FindFrom(ts, id, 0)
  }

  function GetById(ts: seq<Task>, id: string): Option<Task> {
    match IndexOf(ts, id)
    case None => None
    case Some(i) => Some(ts[i])
  }

  /** Two tables with the same length that agree, position by position, on
      whether the id is `k` have the same first match for `k`. */
  lemma IndexOfAgrees(ts: seq<Task>, us: seq<Task>, k: string)
    requires |ts| == |us|
    requires forall j :: 0 <= j < |ts| ==> (ts[j].id == k <==> us[j].id == k)
    ensures IndexOf(ts, k) == IndexOf(us, k)
  {
  }

  // ---------------------------------------------------------------------------
  // Table operations
  // ---------------------------------------------------------------------------

  /** Appends a copy of the task; there is no check for an existing id. */
  function AddTask(e: Engine, t: Task): (r: Engine)
    ensures |r.tasks| == |e.tasks| + 1
    ensures r.tasks[..|e.tasks|] == e.tasks && r.tasks[|e.tasks|] == t
    ensures r.active == e.active
  {
    e.(tasks := e.tasks + [t])
  }

  /** A task added under an id already in the table is shadowed by the older
      entry; one added under a fresh id is found. Other ids are unaffected. */
  lemma AddThenGet(e: Engine, t: Task, k: string)
    ensures GetById(AddTask(e, t).tasks, t.id)
         == if GetById(e.tasks, t.id).Some? then GetById(e.tasks, t.id) else Some(t)
    ensures k != t.id ==> GetById(AddTask(e, t).tasks, k) == GetById(e.tasks, k)
  {
    var ts, us := e.tasks, AddTask(e, t).tasks;
    forall id | id == t.id || id == k
      ensures GetById(us, id) == if IndexOf(ts, id).Some? then GetById(ts, id)
                                 else if t.id == id then Some(t) else None
    {
      match IndexOf(ts, id)
      case Some(i) =>
        assert us[i] == ts[i];
        assert forall j :: 0 <= j < i ==> us[j] == ts[j];
      case None =>
        if t.id == id {
          assert us[|ts|] == t;
          assert IndexOf(us, id) == Some(|ts|);
        } else {
          assert IndexOf(us, id).None?;
        }
    }
  }

  /** Replaces the first entry whose id is the updated task's id; an unknown
      id leaves the table as it is. */
  function UpdateTask(ts: seq<Task>, updated: Task): (r: seq<Task>)
    ensures |r| == |ts|
    ensures IndexOf(ts, updated.id).None? ==> r == ts
    ensures IndexOf(ts, updated.id).Some? ==>
      var i := IndexOf(ts, updated.id).value;
      r[i] == updated && forall j :: 0 <= j < |ts| && j != i ==> r[j] == ts[j]
  {
    match IndexOf(ts, updated.id)
    case None => ts
    case Some(i) => ts[i := updated]
  }

  /** After an update the task is found under its id; every other id still
      finds what it found before. */
  lemma UpdateThenGet(ts: seq<Task>, updated: Task, k: string)
    ensures GetById(UpdateTask(ts, updated), updated.id)
         == if IndexOf(ts, updated.id).Some? then Some(updated) else None
    ensures k != updated.id ==> GetById(UpdateTask(ts, updated), k) == GetById(ts, k)
  {
    var r := UpdateTask(ts, updated);
    IndexOfAgrees(ts, r, updated.id);
    if k != updated.id {
      IndexOfAgrees(ts, r, k);
      match IndexOf(ts, k)
      case None =>
      case Some(i) =>
        assert i != IndexOf(ts, updated.id).GetOr(|ts|);
    }
  }

  // ---------------------------------------------------------------------------
  // Alert wording
  // ---------------------------------------------------------------------------

  /** Final failure; cancellation reuses this wording. */
  function FailureAlert(t: Task): AlertData {
    AlertData(Error, "Falló " + t.title, Some("Sin más reintentos"), Some(t.id))
  }

  /** A retry, `attempt` being the new retry count. */
  function RetryAlert(t: Task, attempt: int): AlertData {
    AlertData(Info, "Reintentando " + t.title, Some("Intento " + IntToString(attempt) + "/3"), Some(t.id))
  }

  function CancelledAlert(t: Task): AlertData {
    AlertData(Info, "Tarea " + t.title + " cancelada", None, Some(t.id))
  }

  function CompletedAlert(t: Task): AlertData {
    AlertData(Success, "Completada " + t.title, None, Some(t.id))
  }

  function BlockedAlert(t: Task, maxTime: int): AlertData {
    AlertData(Warn, "Tarea " + t.title + " bloqueada", Some("Excedió " + IntToString(maxTime) + "ms"), Some(t.id))
  }

  // ---------------------------------------------------------------------------
  // User operations
  // ---------------------------------------------------------------------------

  /** Cancels a pending or running task, raising the failure alert; any other
      state, or an unknown id, changes nothing and raises nothing. */
  function CancelTask(e: Engine, id: string): (r: Step)
    ensures r.engine.active == e.active
    ensures match IndexOf(e.tasks, id)
      case None => r == Step(e, [])
      case Some(i) =>
        if e.tasks[i].state == Pending || e.tasks[i].state == InProgress then
          r.engine.tasks == e.tasks[i := e.tasks[i].(state := Cancelled)]
          && r.issued == [FailureAlert(e.tasks[i])]
        else r == Step(e, [])
  {
    match GetById(e.tasks, id)
    case None => Step(e, [])
    case Some(cur) =>
      if cur.state == Pending || cur.state == InProgress then
        Step(e.(tasks := UpdateTask(e.tasks, cur.(state := Cancelled))), [FailureAlert(cur)])
      else Step(e, [])
  }

  /** The tasks whose id is not `x`, in their original order. */
  function Survivors(ts: seq<Task>, x: string): (r: seq<Task>)
    ensures |r| <= |ts|
    ensures forall i :: 0 <= i < |r| ==> r[i].id != x && r[i] in ts
    ensures forall t :: t in ts && t.id != x ==> t in r
    decreases |ts|
  {
    if |ts| == 0 then []
    else if ts[0].id == x then Survivors(ts[1..], x)
    else [ts[0]] + Survivors(ts[1..], x)
  }

  /** Removes every entry with id `x` and strips `x` from every surviving
      task's dependency list; nothing else changes. */
  function DeleteTask(e: Engine, x: string): (r: Engine)
    ensures r.active == e.active
    ensures forall t :: t in r.tasks ==> t.id != x && forall d :: d in t.dependencies ==> d.id != x
    ensures |r.tasks| == |Survivors(e.tasks, x)|
    ensures forall i :: 0 <= i < |r.tasks| ==>
      r.tasks[i].(dependencies := []) == Survivors(e.tasks, x)[i].(dependencies := [])
    ensures forall i :: 0 <= i < |r.tasks| ==>
      r.tasks[i].dependencies == Survivors(Survivors(e.tasks, x)[i].dependencies, x)
  {
    e.(tasks := StripAll(Survivors(e.tasks, x), x))
  }

  /** Drops `x` from the dependency list of every entry. */
  function StripAll(ts: seq<Task>, x: string): seq<Task> {
    seq(|ts|, i requires 0 <= i < |ts| => ts[i].(dependencies := Survivors(ts[i].dependencies, x)))
  }

  lemma StripAllConcat(a: seq<Task>, b: seq<Task>, x: string)
    ensures StripAll(a + b, x) == StripAll(a, x) + StripAll(b, x)
  {
    var l, r := StripAll(a + b, x), StripAll(a, x) + StripAll(b, x);
    assert |l| == |r|;
    forall i | 0 <= i < |l|
      ensures l[i] == r[i]
    {
      if i < |a| {
        assert (a + b)[i] == a[i];
      } else {
        assert (a + b)[i] == b[i - |a|];
      }
    }
  }

  /** Filtering a table that has no entry with id `x` keeps it whole. */
  lemma {:induction false} SurvivorsOfClean(ts: seq<Task>, x: string)
    requires forall i :: 0 <= i < |ts| ==> ts[i].id != x
    ensures Survivors(ts, x) == ts
    decreases |ts|
  {
    if |ts| > 0 {
      SurvivorsOfClean(ts[1..], x);
      assert [ts[0]] + ts[1..] == ts;
    }
  }

  /** Filtering distributes over concatenation: survivors keep their relative order. */
  lemma {:induction false} SurvivorsOfConcat(a: seq<Task>, b: seq<Task>, x: string)
    ensures Survivors(a + b, x) == Survivors(a, x) + Survivors(b, x)
    decreases |a|
  {
    if |a| > 0 {
      var ab := a + b;
      assert ab[0] == a[0] && ab[1..] == a[1..] + b;
      SurvivorsOfConcat(a[1..], b, x);
      if a[0].id != x {
        assert Survivors(ab, x) == [a[0]] + Survivors(a[1..] + b, x);
        assert Survivors(a, x) == [a[0]] + Survivors(a[1..], x);
        assert [a[0]] + (Survivors(a[1..], x) + Survivors(b, x))
            == ([a[0]] + Survivors(a[1..], x)) + Survivors(b, x);
      }
    } else {
      assert a + b == b;
    }
  }

  /** Deleting acts entry by entry: on a concatenated table it is the
      concatenation of the deletions, so survivors keep their relative order. */
  lemma DeleteOfConcat(a: seq<Task>, b: seq<Task>, active: set<string>, x: string)
    ensures DeleteTask(Engine(a + b, active), x).tasks
         == DeleteTask(Engine(a, active), x).tasks + DeleteTask(Engine(b, active), x).tasks
  {
    SurvivorsOfConcat(a, b, x);
    StripAllConcat(Survivors(a, x), Survivors(b, x), x);
  }

  /** Deleting twice is deleting once. */
  lemma DeleteIdempotent(e: Engine, x: string)
    ensures DeleteTask(DeleteTask(e, x), x) == DeleteTask(e, x)
  {
    var r := DeleteTask(e, x);
    assert forall i :: 0 <= i < |r.tasks| ==> r.tasks[i] in r.tasks;
    SurvivorsOfClean(r.tasks, x);
    StripClean(r.tasks, x);
  }

  /** Stripping `x` from tables that no longer mention it changes nothing. */
  lemma StripClean(ts: seq<Task>, x: string)
    requires forall t :: t in ts ==> forall d :: d in t.dependencies ==> d.id != x
    ensures StripAll(ts, x) == ts
  {
    forall i | 0 <= i < |ts|
      ensures StripAll(ts, x)[i] == ts[i]
    {
      var deps := ts[i].dependencies;
      assert ts[i] in ts;
      assert forall j :: 0 <= j < |deps| ==> deps[j] in deps;
      SurvivorsOfClean(deps, x);
    }
  }

  /** Retries a failed task: with a retry left it becomes pending with one more
      retry counted; otherwise it stays failed and the failure alert is raised.
      Any other state, or an unknown id, changes nothing. */
  function RetryTask(e: Engine, id: string): (r: Step)
    ensures r.engine.active == e.active
    ensures match IndexOf(e.tasks, id)
      case None => r == Step(e, [])
      case Some(i) =>
        var cur := e.tasks[i];
        if cur.state != Failed then r == Step(e, [])
        else if cur.retries + 1 <= MaxRetries then
          r.engine.tasks == e.tasks[i := cur.(retries := cur.retries + 1, state := Pending)]
          && r.issued == [RetryAlert(cur, cur.retries + 1)]
        else r.engine == e && r.issued == [FailureAlert(cur)]
  {
    match GetById(e.tasks, id)
    case None => Step(e, [])
    case Some(cur) =>
      if cur.state == Failed then
        var nextRetries := cur.retries + 1;
        if nextRetries <= MaxRetries then
          Step(e.(tasks := UpdateTask(e.tasks, cur.(retries := nextRetries, state := Pending))),
               [RetryAlert(cur, nextRetries)])
        else
          Step(e.(tasks := UpdateTask(e.tasks, cur.(state := Failed))), [FailureAlert(cur)])
      else Step(e, [])
  }

  /** Sets the start time of the task with the given id from `task`; no other
      field, the state included, changes. */
  function UpdateCreateAt(e: Engine, task: Task): (r: Engine)
    ensures r.active == e.active && |r.tasks| == |e.tasks|
    ensures IndexOf(e.tasks, task.id).None? ==> r == e
    ensures IndexOf(e.tasks, task.id).Some? ==>
      var i := IndexOf(e.tasks, task.id).value;
      && r.tasks[i] == e.tasks[i].(startAt := task.startAt)
      && forall j :: 0 <= j < |e.tasks| && j != i ==> r.tasks[j] == e.tasks[j]
  {
    match GetById(e.tasks, task.id)
    case None => e
    case Some(cur) => e.(tasks := UpdateTask(e.tasks, cur.(startAt := task.startAt)))
  }

  // ---------------------------------------------------------------------------
  // Execution
  // ---------------------------------------------------------------------------

  predicate HasCapacity(active: set<string>) {
    |active| < MaxConcurrency
  }

  /** The eager part of a dispatch: a pending task, when a slot is free,
      takes the slot and goes in progress. Otherwise nothing changes. No alert
      is raised either way. */
  function TryExecute(e: Engine, id: string): (r: Engine)
    ensures match IndexOf(e.tasks, id)
      case None => r == e
      case Some(i) =>
        if e.tasks[i].state == Pending && |e.active| < MaxConcurrency then
          r == Engine(e.tasks[i := e.tasks[i].(state := InProgress)], e.active + {id})
        else r == e
  {
    match GetById(e.tasks, id)
    case None => e
    case Some(initial) =>
      if initial.state == Pending && HasCapacity(e.active) then
        Engine(UpdateTask(e.tasks, initial.(state := InProgress)), e.active + {id})
      else e
  }

  /** A dispatch only ever moves one pending entry to in-progress and adds
      only the dispatched id to the active set; with no slot free it does
      nothing at all. */
  lemma TryExecuteOnlyStartsPending(e: Engine, id: string)
    ensures var r := TryExecute(e, id);
      && e.active <= r.active <= e.active + {id}
      && |r.active| <= |e.active| + 1
      && (!HasCapacity(e.active) ==> r == e)
      && |r.tasks| == |e.tasks|
      && forall j :: 0 <= j < |e.tasks| ==>
           || r.tasks[j] == e.tasks[j]
           || (e.tasks[j].state == Pending && r.tasks[j] == e.tasks[j].(state := InProgress))
  {
    var r := TryExecute(e, id);
    if r.active != e.active {
      assert r.active == e.active + {id};
      assert |e.active + {id}| <= |e.active| + 1;
    }
  }

  /** The end of a simulated run of `id`. The task is read again: gone means
      nothing to do, cancelled raises only the cancellation notice, otherwise
      `succeeded` decides between completion and a retry or final failure.
      In every case the slot is released. */
  function ResolveRun(e: Engine, id: string, succeeded: bool): (r: Step)
    ensures r.engine.active == e.active - {id}
    ensures match IndexOf(e.tasks, id)
      case None => r.engine.tasks == e.tasks && r.issued == []
      case Some(i) =>
        var cur := e.tasks[i];
        if cur.state == Cancelled then
          r.engine.tasks == e.tasks && r.issued == [CancelledAlert(cur)]
        else if succeeded then
          r.engine.tasks == e.tasks[i := cur.(state := Completed, completed := true)]
          && r.issued == [CompletedAlert(cur)]
        else if cur.retries + 1 <= MaxRetries then
          r.engine.tasks == e.tasks[i := cur.(retries := cur.retries + 1, state := Pending)]
          && r.issued == [RetryAlert(cur, cur.retries + 1)]
        else
          r.engine.tasks == e.tasks[i := cur.(state := Failed)]
          && r.issued == [FailureAlert(cur)]
  {
    var released := e.active - {id};
    match GetById(e.tasks, id)
    case None => Step(Engine(e.tasks, released), [])
    case Some(cur) =>
      if cur.state == Cancelled then
        Step(Engine(e.tasks, released), [CancelledAlert(cur)])
      else if succeeded then
        Step(Engine(UpdateTask(e.tasks, cur.(state := Completed, completed := true)), released),
             [CompletedAlert(cur)])
      else
        var retryCount := cur.retries + 1;
        if retryCount <= MaxRetries then
          Step(Engine(UpdateTask(e.tasks, cur.(retries := retryCount, state := Pending)), released),
               [RetryAlert(cur, retryCount)])
        else
          Step(Engine(UpdateTask(e.tasks, cur.(state := Failed)), released), [FailureAlert(cur)])
  }

  /** The stall timer armed at dispatch with `armed`, the task as it was then:
      after twice its duration a task still in progress becomes blocked with a
      warning naming that limit. The slot is never released here. */
  function WatchdogFires(e: Engine, armed: Task): (r: Step)
    ensures r.engine.active == e.active
    ensures match IndexOf(e.tasks, armed.id)
      case None => r == Step(e, [])
      case Some(i) =>
        if e.tasks[i].state == InProgress then
          r.engine.tasks == e.tasks[i := e.tasks[i].(state := Blocked)]
          && r.issued == [BlockedAlert(e.tasks[i], armed.duration * 2)]
        else r == Step(e, [])
  {
    var maxTime := armed.duration * 2;
    match GetById(e.tasks, armed.id)
    case None => Step(e, [])
    case Some(cur) =>
      if cur.state == InProgress then
        Step(e.(tasks := UpdateTask(e.tasks, cur.(state := Blocked))), [BlockedAlert(cur, maxTime)])
      else Step(e, [])
  }

  // ---------------------------------------------------------------------------
  // Events and invariants
  // ---------------------------------------------------------------------------

  /** Every external operation on the engine and every timer event. The
      raw `updateTask` replacement is not an event: the engine calls it only
      from within its own operations, which are modelled here. */
  datatype Event =
    | Add(task: Task)
    | Cancel(id: string)
    | Delete(id: string)
    | Retry(id: string)
    | Reschedule(task: Task)
    | Dispatch(id: string)
    | Resolve(id: string, succeeded: bool)
    | WatchdogFired(armed: Task)

  function Apply(e: Engine, ev: Event): Step {
    match ev
    case Add(t) => Step(AddTask(e, t), [])
    case Cancel(id) => CancelTask(e, id)
    case Delete(id) => Step(DeleteTask(e, id), [])
    case Retry(id) => RetryTask(e, id)
    case Reschedule(t) => Step(UpdateCreateAt(e, t), [])
    case Dispatch(id) => Step(TryExecute(e, id), [])
    case Resolve(id, ok) => ResolveRun(e, id, ok)
    case WatchdogFired(armed) => WatchdogFires(e, armed)
  }

  /** Every event raises at most one alert. */
  lemma AtMostOneAlert(e: Engine, ev: Event)
    ensures |Apply(e, ev).issued| <= 1
  {
  }

  /** Retries stay within 0..2 and a completed task carries the completed flag. */
  ghost predicate TaskInvariant(t: Task) {
    0 <= t.retries <= MaxRetries && (t.state == Completed ==> t.completed)
  }

  ghost predicate Valid(e: Engine) {
    && |e.active| <= MaxConcurrency
    && forall t :: t in e.tasks ==> TaskInvariant(t)
  }

  /** Replacing one entry by a well-formed task keeps the table well-formed. */
  lemma ReplaceKeepsInvariant(ts: seq<Task>, i: nat, t: Task)
    requires i < |ts|
    requires forall u :: u in ts ==> TaskInvariant(u)
    requires TaskInvariant(t)
    ensures forall u :: u in ts[i := t] ==> TaskInvariant(u)
  {
    forall u | u in ts[i := t]
      ensures TaskInvariant(u)
    {
      var j :| 0 <= j < |ts[i := t]| && ts[i := t][j] == u;
      if j != i {
        assert u == ts[j];
      }
    }
  }

  /** Every event keeps the engine well-formed, provided an added task is:
      no operation sets retries above 2, and no more than three slots are held. */
  lemma ApplyPreservesValid(e: Engine, ev: Event)
    requires Valid(e)
    requires ev.Add? ==> TaskInvariant(ev.task)
    ensures Valid(Apply(e, ev).engine)
  {
    match ev
    case Add(t) => AddKeepsValid(e, t);
    case Delete(x) => DeleteKeepsValid(e, x);
    case Cancel(id) => CancelKeepsValid(e, id);
    case Retry(id) => RetryKeepsValid(e, id);
    case Reschedule(t) => RescheduleKeepsValid(e, t);
    case Dispatch(id) => DispatchKeepsValid(e, id);
    case Resolve(id, ok) => ResolveKeepsValid(e, id, ok);
    case WatchdogFired(armed) => WatchdogKeepsValid(e, armed);
  }

  lemma AddKeepsValid(e: Engine, t: Task)
    requires Valid(e) && TaskInvariant(t)
    ensures Valid(AddTask(e, t))
  {
    var r := AddTask(e, t);
    assert forall u :: u in r.tasks ==> u in e.tasks || u == t;
  }

  lemma DeleteKeepsValid(e: Engine, x: string)
    requires Valid(e)
    ensures Valid(DeleteTask(e, x))
  {
    var r := DeleteTask(e, x);
    var kept := Survivors(e.tasks, x);
    forall u | u in r.tasks
      ensures TaskInvariant(u)
    {
      var j :| 0 <= j < |r.tasks| && r.tasks[j] == u;
      assert u.(dependencies := []) == kept[j].(dependencies := []);
      assert kept[j] in e.tasks;
    }
  }

  lemma CancelKeepsValid(e: Engine, id: string)
    requires Valid(e)
    ensures Valid(CancelTask(e, id).engine)
  {
    var r := CancelTask(e, id).engine;
    if r != e {
      var i := IndexOf(e.tasks, id).value;
      assert e.tasks[i] in e.tasks;
      ReplaceKeepsInvariant(e.tasks, i, e.tasks[i].(state := Cancelled));
    }
  }

  lemma RetryKeepsValid(e: Engine, id: string)
    requires Valid(e)
    ensures Valid(RetryTask(e, id).engine)
  {
    var r := RetryTask(e, id).engine;
    if r != e {
      var i := IndexOf(e.tasks, id).value;
      assert e.tasks[i] in e.tasks;
      var cur := e.tasks[i];
      ReplaceKeepsInvariant(e.tasks, i, cur.(retries := cur.retries + 1, state := Pending));
    }
  }

  lemma RescheduleKeepsValid(e: Engine, t: Task)
    requires Valid(e)
    ensures Valid(UpdateCreateAt(e, t))
  {
    var r := UpdateCreateAt(e, t);
    forall u | u in r.tasks
      ensures TaskInvariant(u)
    {
      var j :| 0 <= j < |r.tasks| && r.tasks[j] == u;
      assert e.tasks[j] in e.tasks;
    }
  }

  lemma DispatchKeepsValid(e: Engine, id: string)
    requires Valid(e)
    ensures Valid(TryExecute(e, id))
  {
    var r := TryExecute(e, id);
    if r != e {
      var i := IndexOf(e.tasks, id).value;
      assert e.tasks[i] in e.tasks;
      ReplaceKeepsInvariant(e.tasks, i, e.tasks[i].(state := InProgress));
      assert |r.active| <= |e.active| + 1;
    }
  }

  lemma ResolveKeepsValid(e: Engine, id: string, ok: bool)
    requires Valid(e)
    ensures Valid(ResolveRun(e, id, ok).engine)
  {
    var r := ResolveRun(e, id, ok).engine;
    assert |r.active| <= |e.active|;
    match IndexOf(e.tasks, id) {
      case None =>
      case Some(i) =>
        var cur := e.tasks[i];
        assert cur in e.tasks;
        if cur.state != Cancelled {
          if ok {
            ReplaceKeepsInvariant(e.tasks, i, cur.(state := Completed, completed := true));
          } else if cur.retries + 1 <= MaxRetries {
            ReplaceKeepsInvariant(e.tasks, i, cur.(retries := cur.retries + 1, state := Pending));
          } else {
            ReplaceKeepsInvariant(e.tasks, i, cur.(state := Failed));
          }
        }
    }
  }

  lemma WatchdogKeepsValid(e: Engine, armed: Task)
    requires Valid(e)
    ensures Valid(WatchdogFires(e, armed).engine)
  {
    var r := WatchdogFires(e, armed).engine;
    if r != e {
      var i := IndexOf(e.tasks, armed.id).value;
      assert e.tasks[i] in e.tasks;
      ReplaceKeepsInvariant(e.tasks, i, e.tasks[i].(state := Blocked));
    }
  }

  /** A cancelled task stays cancelled under every event except its own
      deletion: neither a run's resolution nor a retry nor the watchdog
      revives it, and deleting another id keeps it. */
  lemma CancelledStaysCancelled(e: Engine, ev: Event, id: string)
    requires GetById(e.tasks, id).Some? && GetById(e.tasks, id).value.state == Cancelled
    requires ev.Delete? ==> ev.id != id
    ensures var after := GetById(Apply(e, ev).engine.tasks, id);
            after.Some? && after.value.state == Cancelled
  {
    if ev.Add? {
      AddThenGet(e, ev.task, id);
    } else if ev.Delete? {
      DeleteOtherKeepsLookup(e, ev.id, id);
    } else {
      var i := IndexOf(e.tasks, id).value;
      InPlaceKeepsCancelled(e, ev);
      KeepsCancelled(e.tasks, Apply(e, ev).engine.tasks, i);
    }
  }

  /** The lookup of a non-empty table either stops at its head or continues in its tail. */
  lemma GetByIdCons(ts: seq<Task>, id: string)
    requires |ts| > 0
    ensures GetById(ts, id) == if ts[0].id == id then Some(ts[0]) else GetById(ts[1..], id)
  {
    if ts[0].id != id {
      match IndexOf(ts[1..], id) {
        case None =>
          assert forall j :: 0 <= j < |ts| ==> ts[j].id != id by {
            forall j | 0 <= j < |ts|
              ensures ts[j].id != id
            {
              if j > 0 {
                assert ts[j] == ts[1..][j - 1];
              }
            }
          }
        case Some(k) =>
          assert ts[k + 1] == ts[1..][k];
          assert forall j :: 1 <= j < k + 1 ==> ts[j] == ts[1..][j - 1];
      }
    }
  }

  /** Removing the entries of another id keeps the first entry of `id`. */
  lemma {:induction false} SurvivorsKeepLookup(ts: seq<Task>, y: string, id: string)
    requires y != id
    ensures GetById(Survivors(ts, y), id) == GetById(ts, id)
    decreases |ts|
  {
    if |ts| == 0 {
    } else {
      GetByIdCons(ts, id);
      SurvivorsKeepLookup(ts[1..], y, id);
      if ts[0].id != y {
        GetByIdCons(Survivors(ts, y), id);
        assert Survivors(ts, y)[1..] == Survivors(ts[1..], y);
      }
    }
  }

  /** Deleting another id keeps the state of the task found under `id`. */
  lemma DeleteOtherKeepsLookup(e: Engine, y: string, id: string)
    requires y != id
    requires GetById(e.tasks, id).Some?
    ensures GetById(DeleteTask(e, y).tasks, id).Some?
    ensures GetById(DeleteTask(e, y).tasks, id).value.state == GetById(e.tasks, id).value.state
  {
    var kept := Survivors(e.tasks, y);
    SurvivorsKeepLookup(e.tasks, y, id);
    var r := DeleteTask(e, y).tasks;
    IndexOfAgrees(kept, r, id);
  }

  /** `after` has the same ids, position by position, as `before`, and every
      cancelled entry of `before` is still cancelled. */
  ghost predicate CancelledKept(before: seq<Task>, after: seq<Task>) {
    && |after| == |before|
    && forall j :: 0 <= j < |before| ==>
         after[j].id == before[j].id && (before[j].state == Cancelled ==> after[j].state == Cancelled)
  }

  /** Every event other than an addition or a deletion rewrites entries in
      place and leaves cancelled entries cancelled. */
  lemma InPlaceKeepsCancelled(e: Engine, ev: Event)
    requires !ev.Add? && !ev.Delete?
    ensures CancelledKept(e.tasks, Apply(e, ev).engine.tasks)
  {
    match ev {
      case Cancel(x) => CancelKeepsCancelled(e, x);
      case Retry(x) => RetryKeepsCancelled(e, x);
      case Reschedule(t) => RescheduleKeepsCancelled(e, t);
      case Dispatch(x) => DispatchKeepsCancelled(e, x);
      case Resolve(x, ok) => ResolveKeepsCancelled(e, x, ok);
      case WatchdogFired(armed) => WatchdogKeepsCancelled(e, armed);
    }
  }

  lemma CancelKeepsCancelled(e: Engine, x: string)
    ensures CancelledKept(e.tasks, CancelTask(e, x).engine.tasks)
  {
    UpdateKeepsCancelled(e.tasks, CancelTask(e, x).engine.tasks, x);
  }

  lemma RetryKeepsCancelled(e: Engine, x: string)
    ensures CancelledKept(e.tasks, RetryTask(e, x).engine.tasks)
  {
    UpdateKeepsCancelled(e.tasks, RetryTask(e, x).engine.tasks, x);
  }

  lemma RescheduleKeepsCancelled(e: Engine, t: Task)
    ensures CancelledKept(e.tasks, UpdateCreateAt(e, t).tasks)
  {
    UpdateKeepsCancelled(e.tasks, UpdateCreateAt(e, t).tasks, t.id);
  }

  lemma DispatchKeepsCancelled(e: Engine, x: string)
    ensures CancelledKept(e.tasks, TryExecute(e, x).tasks)
  {
    UpdateKeepsCancelled(e.tasks, TryExecute(e, x).tasks, x);
  }

  lemma ResolveKeepsCancelled(e: Engine, x: string, ok: bool)
    ensures CancelledKept(e.tasks, ResolveRun(e, x, ok).engine.tasks)
  {
    UpdateKeepsCancelled(e.tasks, ResolveRun(e, x, ok).engine.tasks, x);
  }

  lemma WatchdogKeepsCancelled(e: Engine, armed: Task)
    ensures CancelledKept(e.tasks, WatchdogFires(e, armed).engine.tasks)
  {
    UpdateKeepsCancelled(e.tasks, WatchdogFires(e, armed).engine.tasks, armed.id);
  }

  /** A rewrite of at most the first entry with id `k` that keeps its id and
      does not touch it when cancelled keeps cancelled entries cancelled. */
  lemma UpdateKeepsCancelled(ts: seq<Task>, r: seq<Task>, k: string)
    requires |r| == |ts|
    requires IndexOf(ts, k).None? ==> r == ts
    requires IndexOf(ts, k).Some? ==>
      var i := IndexOf(ts, k).value;
      && (forall j :: 0 <= j < |ts| && j != i ==> r[j] == ts[j])
      && r[i].id == ts[i].id
      && (ts[i].state == Cancelled ==> r[i].state == Cancelled)
    ensures CancelledKept(ts, r)
  {
  }

  /** A table whose entries keep their ids and cancelled states keeps the
      first match of every id, with its cancelled state. */
  lemma KeepsCancelled(ts: seq<Task>, r: seq<Task>, i: nat)
    requires i < |ts|
    requires IndexOf(ts, ts[i].id) == Some(i) && ts[i].state == Cancelled
    requires CancelledKept(ts, r)
    ensures GetById(r, ts[i].id).Some? && GetById(r, ts[i].id).value.state == Cancelled
  {
    IndexOfAgrees(ts, r, ts[i].id);
  }

  // ---------------------------------------------------------------------------
  // Whole runs
  // ---------------------------------------------------------------------------

  /** A fresh pending task dispatched with a slot free and resolved with a
      successful draw ends completed, with one success alert, and its slot is
      given back. */
  lemma SuccessfulRun(e: Engine, t: Task)
    requires t.state == Pending
    requires GetById(e.tasks, t.id).None? && t.id !in e.active
    requires |e.active| < MaxConcurrency
    ensures var running := TryExecute(AddTask(e, t), t.id);
            var done := ResolveRun(running, t.id, true);
            && GetById(running.tasks, t.id) == Some(t.(state := InProgress))
            && running.active == e.active + {t.id}
            && GetById(done.engine.tasks, t.id) == Some(t.(state := Completed, completed := true))
            && done.engine.active == e.active
            && done.issued == [CompletedAlert(t)]
  {
    var added := AddTask(e, t);
    AddThenGet(e, t, t.id);
    var running := TryExecute(added, t.id);
    UpdateThenGet(added.tasks, t.(state := InProgress), t.id);
    UpdateThenGet(running.tasks, t.(state := Completed, completed := true), t.id);
  }

  /** A fresh task whose first run fails goes back to pending with one retry
      counted and raises "Intento 1/3". */
  lemma FailedFirstRun(e: Engine, t: Task)
    requires t.state == Pending && t.retries == 0
    requires GetById(e.tasks, t.id).None? && t.id !in e.active
    requires |e.active| < MaxConcurrency
    ensures var done := ResolveRun(TryExecute(AddTask(e, t), t.id), t.id, false);
            && GetById(done.engine.tasks, t.id) == Some(t.(retries := 1))
            && done.engine.active == e.active
            && done.issued == [AlertData(Info, "Reintentando " + t.title, Some("Intento 1/3"), Some(t.id))]
  {
    var added := AddTask(e, t);
    AddThenGet(e, t, t.id);
    var running := TryExecute(added, t.id);
    UpdateThenGet(added.tasks, t.(state := InProgress), t.id);
    UpdateThenGet(running.tasks, t.(retries := 1, state := Pending), t.id);
    FirstRetryWording(t);
  }

  lemma FirstRetryWording(t: Task)
    ensures RetryAlert(t, 1) == AlertData(Info, "Reintentando " + t.title, Some("Intento 1/3"), Some(t.id))
  {
    assert IntToString(1) == "1" by {
      assert NatToString(1) == [DigitChar(1)] == ['1'];
    }
    assert "Intento " + IntToString(1) + "/3" == "Intento 1/3";
  }

  /** A run that fails with both retries used leaves the task failed, retries
      still 2, with the final failure alert. */
  lemma ExhaustedRun(e: Engine, t: Task)
    requires t.state == Pending && t.retries == MaxRetries
    requires GetById(e.tasks, t.id).None? && t.id !in e.active
    requires |e.active| < MaxConcurrency
    ensures var done := ResolveRun(TryExecute(AddTask(e, t), t.id), t.id, false);
            && GetById(done.engine.tasks, t.id) == Some(t.(state := Failed))
            && done.engine.active == e.active
            && done.issued == [FailureAlert(t)]
  {
    var added := AddTask(e, t);
    AddThenGet(e, t, t.id);
    var running := TryExecute(added, t.id);
    UpdateThenGet(added.tasks, t.(state := InProgress), t.id);
    UpdateThenGet(running.tasks, t.(state := Failed), t.id);
  }

  /** A stalled run is blocked by the watchdog, which keeps its slot. */
  lemma WatchdogBlocksStalledRun(e: Engine, t: Task)
    requires t.state == Pending
    requires GetById(e.tasks, t.id).None? && t.id !in e.active
    requires |e.active| < MaxConcurrency
    ensures var running := TryExecute(AddTask(e, t), t.id);
            var fired := WatchdogFires(running, t);
            && GetById(fired.engine.tasks, t.id) == Some(t.(state := Blocked))
            && fired.engine.active == e.active + {t.id}
            && fired.issued == [BlockedAlert(t.(state := InProgress), t.duration * 2)]
  {
    var added := AddTask(e, t);
    AddThenGet(e, t, t.id);
    var running := TryExecute(added, t.id);
    UpdateThenGet(added.tasks, t.(state := InProgress), t.id);
    UpdateThenGet(running.tasks, t.(state := Blocked), t.id);
  }
}

=== FILE: orchestration.dfy ===
/** The three services wired together: a scheduling pass that asks the
    engine itself for capacity and dispatches through it, and the delivery of
    the engine's alert requests to the alert service. Each step is atomic:
    the re-entrant pass that the source starts from inside an engine update
    is not modelled. */
module Orchestration {
  import opened Domain
  import Alerts
  import opened TaskEngine
  import TaskScheduler

  /** One scheduling pass over the engine's current table, with the engine's
      own capacity check before each dispatch. Returns the engine afterwards
      and the ids handed to `TryExecute`, in order. */
  method ScheduleOnEngine(e: Engine, now: int) returns (r: Engine, dispatched: seq<string>)
    ensures var plan := TaskScheduler.Plan(e.tasks, now);
      && |dispatched| <= |plan|
      && (forall i :: 0 <= i < |dispatched| ==> dispatched[i] == plan[i].id)
      && (|dispatched| < |plan| ==> !HasCapacity(r.active))
    ensures e.active <= r.active
    ensures r.active <= e.active + Ids(dispatched)
    ensures |e.active| <= MaxConcurrency ==> |r.active| <= MaxConcurrency
    ensures StartedOnly(e.tasks, r.tasks)
    ensures Started(e.tasks, r.tasks, dispatched)
    ensures HoldSlots(e.tasks, r.tasks, r.active)
  {
    r, dispatched := DispatchInOrder(e, TaskScheduler.Plan(e.tasks, now));
  }

  /** Hands the entries of `plan` to `TryExecute` in order while the engine
      reports a free slot. */
  method DispatchInOrder(e: Engine, plan: seq<Task>) returns (r: Engine, dispatched: seq<string>)
    ensures |dispatched| <= |plan|
    ensures forall i :: 0 <= i < |dispatched| ==> dispatched[i] == plan[i].id
    ensures |dispatched| < |plan| ==> !HasCapacity(r.active)
    ensures e.active <= r.active
    ensures r.active <= e.active + Ids(dispatched)
    ensures |e.active| <= MaxConcurrency ==> |r.active| <= MaxConcurrency
    ensures StartedOnly(e.tasks, r.tasks)
    ensures Started(e.tasks, r.tasks, dispatched)
    ensures HoldSlots(e.tasks, r.tasks, r.active)
  {
    r := e;
    dispatched := [];
    var i := 0;
    while i < |plan| && HasCapacity(r.active)
      invariant |dispatched| == i
      invariant Progress(e, plan, r, dispatched)
    {
      DispatchStep(e, plan, r, dispatched);
      r, dispatched := TryExecute(r, plan[i].id), dispatched + [plan[i].id];
      i := i + 1;
    }
  }

  /** What a pass has established after handing over `dispatched`: they are
      the first ids of the plan, the active set grew only by them and stays
      bounded, entries only went from pending to in-progress, each handed-over
      task is past pending, and every started entry holds a slot. */
  predicate Progress(e: Engine, plan: seq<Task>, r: Engine, dispatched: seq<string>) {
    && |dispatched| <= |plan|
    && (forall k :: 0 <= k < |dispatched| ==> dispatched[k] == plan[k].id)
    && e.active <= r.active <= e.active + Ids(dispatched)
    && (|e.active| <= MaxConcurrency ==> |r.active| <= MaxConcurrency)
    && StartedOnly(e.tasks, r.tasks)
    && Started(e.tasks, r.tasks, dispatched)
    && HoldSlots(e.tasks, r.tasks, r.active)
  }

  /** `after` differs from `before` only in entries moved from pending to in
      progress. */
  predicate StartedOnly(before: seq<Task>, after: seq<Task>) {
    && |after| == |before|
    && forall j :: 0 <= j < |before| ==>
         || after[j] == before[j]
         || (before[j].state == Pending && after[j] == before[j].(state := InProgress))
  }

  lemma StartedOnlyTrans(a: seq<Task>, b: seq<Task>, c: seq<Task>)
    requires StartedOnly(a, b) && StartedOnly(b, c)
    ensures StartedOnly(a, c)
  {
    forall j | 0 <= j < |a|
      ensures c[j] == a[j] || (a[j].state == Pending && c[j] == a[j].(state := InProgress))
    {
      if b[j] != a[j] {
        assert c[j] == b[j];
      }
    }
  }

  /** Every id in `dispatched` that names an entry of the table before the
      pass names one that is no longer pending after it: a handed-over task
      was either started or already past pending. */
  predicate Started(before: seq<Task>, after: seq<Task>, dispatched: seq<string>)
    requires |after| == |before|
  {
    forall k :: 0 <= k < |dispatched| && IndexOf(before, dispatched[k]).Some? ==>
      after[IndexOf(before, dispatched[k]).value].state != Pending
  }

  /** Every entry that changed between `before` and `after` belongs to a task
      holding a slot in `active`. */
  predicate HoldSlots(before: seq<Task>, after: seq<Task>, active: set<string>)
    requires |after| == |before|
  {
    forall j :: 0 <= j < |before| && after[j] != before[j] ==> before[j].id in active
  }

  /** Entries only started keep their ids, so lookups agree. */
  lemma StartedOnlyKeepsLookup(before: seq<Task>, after: seq<Task>, id: string)
    requires StartedOnly(before, after)
    ensures IndexOf(before, id) == IndexOf(after, id)
  {
    forall j | 0 <= j < |before|
      ensures before[j].id == id <==> after[j].id == id
    {
    }
    IndexOfAgrees(before, after, id);
  }

  function Ids(s: seq<string>): set<string> {
    set x | x in s
  }

  /** Dispatching the next plan entry while a slot is free keeps the pass's
      progress: the slot bound holds, and the task, if started, holds a slot. */
  lemma DispatchStep(e: Engine, plan: seq<Task>, r: Engine, dispatched: seq<string>)
    requires |dispatched| < |plan| && HasCapacity(r.active)
    requires Progress(e, plan, r, dispatched)
    ensures var id := plan[|dispatched|].id;
      Progress(e, plan, TryExecute(r, id), dispatched + [id])
  {
    var id := plan[|dispatched|].id;
    TryExecuteOnlyStartsPending(r, id);
    var next := TryExecute(r, id);
    StartedOnlyTrans(e.tasks, r.tasks, next.tasks);
    assert Ids(dispatched + [id]) == Ids(dispatched) + {id};
    StepStartsTask(e, r, dispatched, id);
    StepHoldsSlot(e, r, id);
    assert forall k :: 0 <= k < |dispatched| ==> (dispatched + [id])[k] == dispatched[k];
  }

  /** After a dispatch with a free slot, the dispatched task is past pending,
      as is every task handed over before. */
  lemma StepStartsTask(e: Engine, r: Engine, dispatched: seq<string>, id: string)
    requires HasCapacity(r.active)
    requires StartedOnly(e.tasks, r.tasks)
    requires Started(e.tasks, r.tasks, dispatched)
    ensures Started(e.tasks, TryExecute(r, id).tasks, dispatched + [id])
  {
    TryExecuteOnlyStartsPending(r, id);
    var next := TryExecute(r, id);
    StartedOnlyKeepsLookup(e.tasks, r.tasks, id);
    var all := dispatched + [id];
    forall k | 0 <= k < |all| && IndexOf(e.tasks, all[k]).Some?
      ensures next.tasks[IndexOf(e.tasks, all[k]).value].state != Pending
    {
      var i := IndexOf(e.tasks, all[k]).value;
      if k < |dispatched| {
        assert all[k] == dispatched[k];
        assert r.tasks[i].state != Pending;
      }
    }
  }

  /** A dispatch changes at most the dispatched task's entry, and only when
      it takes a slot for it. */
  lemma StepHoldsSlot(e: Engine, r: Engine, id: string)
    requires |r.tasks| == |e.tasks|
    requires HoldSlots(e.tasks, r.tasks, r.active)
    ensures HoldSlots(e.tasks, TryExecute(r, id).tasks, TryExecute(r, id).active)
  {
    TryExecuteOnlyStartsPending(r, id);
    var next := TryExecute(r, id);
    forall j | 0 <= j < |e.tasks| && next.tasks[j] != e.tasks[j]
      ensures e.tasks[j].id in next.active
    {
      if next.tasks[j] != r.tasks[j] {
        assert IndexOf(r.tasks, id) == Some(j);
      }
    }
  }

  /** The engine and the alert service side by side. */
  datatype System = System(engine: Engine, bus: Alerts.AlertBus)

  /** An engine event at time `now`; its alert requests go through the alert
      helpers, which suppress duplicates. */
  function Handle(sys: System, ev: Event, now: int): (r: System)
    ensures r.engine == Apply(sys.engine, ev).engine
    ensures |sys.bus.history| <= |r.bus.history| <= |sys.bus.history| + 1
    ensures r.bus.history[..|sys.bus.history|] == sys.bus.history
    ensures Apply(sys.engine, ev).issued == [] ==> r.bus == sys.bus
    ensures |Apply(sys.engine, ev).issued| == 1 ==>
      r.bus == Alerts.Emit(sys.bus, Apply(sys.engine, ev).issued[0], now, true)
  {
    var step := Apply(sys.engine, ev);
    AtMostOneAlert(sys.engine, ev);
    System(step.engine, Alerts.Deliver(sys.bus, step.issued, now))
  }

  /** With a clock that never runs backwards, the alert history stays in
      time order across engine events. */
  lemma HandleKeepsChronological(sys: System, ev: Event, now: int)
    requires Alerts.Chronological(sys.bus.history)
    requires |sys.bus.history| > 0 ==> sys.bus.history[|sys.bus.history| - 1].ts <= now
    ensures Alerts.Chronological(Handle(sys, ev, now).bus.history)
  {
    var issued := Apply(sys.engine, ev).issued;
    AtMostOneAlert(sys.engine, ev);
    if |issued| == 1 {
      Alerts.EmitKeepsChronological(sys.bus, issued[0], now, true);
    }
  }
}

=== FILE: scheduler.dfy ===
/** The scheduler: on every table snapshot it selects the eligible tasks,
    orders them by ascending priority (a stable sort, so equal priorities keep
    snapshot order) and dispatches them one by one while the capacity oracle
    answers yes. The oracle's answer to its k-th question of a tick is
    `capacity(k)`; the clock is `now`. */
module TaskScheduler {
  import opened Domain

  // ---------------------------------------------------------------------------
  // Eligibility
  // ---------------------------------------------------------------------------

  /** Position of the LAST entry with this id. The dependency check indexes
      the snapshot with a map built entry by entry, so a later entry with the
      same id replaces an earlier one. */
  function LastIndexOf(all: seq<Task>, id: string): (r: Option<nat>)
    ensures r.Some? ==> r.value < |all| && all[r.value].id == id
    ensures r.Some? ==> forall j :: r.value < j < |all| ==> all[j].id != id
    ensures r.None? <==> forall j :: 0 <= j < |all| ==> all[j].id != id
    decreases |all|
  {
    if |all| == 0 then None
    else if all[|all| - 1].id == id then Some(|all| - 1)
    else LastIndexOf(all[..|all| - 1], id)
  }

  /** The snapshot holds a completed task under this id. An id the snapshot
      does not hold counts as not completed. */
  predicate DependencyCompleted(all: seq<Task>, depId: string) {
    match LastIndexOf(all, depId)
    case None => false
    case Some(i) => all[i].state == Completed
  }

  predicate DependenciesMet(t: Task, all: seq<Task>) {
    || |t.dependencies| == 0
    || forall k :: 0 <= k < |t.dependencies| ==> DependencyCompleted(all, t.dependencies[k].id)
  }

  predicate StartReached(t: Task, now: int) {
    t.startAt.None? || t.startAt.value <= now
  }

  predicate Eligible(t: Task, all: seq<Task>, now: int) {
    t.state == Pending && DependenciesMet(t, all) && StartReached(t, now)
  }

  /** The entries of `s` eligible against the snapshot `all`, in order. */
  function EligibleIn(s: seq<Task>, all: seq<Task>, now: int): seq<Task>
    decreases |s|
  {
    if |s| == 0 then []
    else if Eligible(s[0], all, now) then [s[0]] + EligibleIn(s[1..], all, now)
    else EligibleIn(s[1..], all, now)
  }

  function EligibleTasks(all: seq<Task>, now: int): seq<Task> {
    EligibleIn(all, all, now)
  }

  /** The filter keeps every eligible entry, as often as it occurs, and
      nothing else. */
  lemma {:induction false} EligibleInSpec(s: seq<Task>, all: seq<Task>, now: int)
    ensures forall t :: multiset(EligibleIn(s, all, now))[t]
                     == if Eligible(t, all, now) then multiset(s)[t] else 0
    ensures forall i :: 0 <= i < |EligibleIn(s, all, now)| ==>
      EligibleIn(s, all, now)[i] in s && Eligible(EligibleIn(s, all, now)[i], all, now)
    decreases |s|
  {
    if |s| > 0 {
      EligibleInSpec(s[1..], all, now);
      assert s == [s[0]] + s[1..];
      var rest := EligibleIn(s[1..], all, now);
      if Eligible(s[0], all, now) {
        assert EligibleIn(s, all, now) == [s[0]] + rest;
        forall i | 0 <= i < |EligibleIn(s, all, now)|
          ensures EligibleIn(s, all, now)[i] in s
        {
          if i > 0 {
            assert EligibleIn(s, all, now)[i] == rest[i - 1];
          }
        }
      }
    }
  }

  /** The filter acts entry by entry: on a concatenation it is the
      concatenation of the filtered parts, so eligible entries keep their
      relative order. */
  lemma {:induction false} EligibleInOfConcat(a: seq<Task>, b: seq<Task>, all: seq<Task>, now: int)
    ensures EligibleIn(a + b, all, now) == EligibleIn(a, all, now) + EligibleIn(b, all, now)
    decreases |a|
  {
    if |a| > 0 {
      assert (a + b)[0] == a[0] && (a + b)[1..] == a[1..] + b;
      EligibleInOfConcat(a[1..], b, all, now);
    } else {
      assert a + b == b;
    }
  }

  /** A task without dependencies has its dependencies met. */
  lemma NoDependenciesMet(t: Task, all: seq<Task>)
    requires |t.dependencies| == 0
    ensures DependenciesMet(t, all)
  {
  }

  /** A dependency whose id the snapshot does not hold is unmet. */
  lemma MissingDependencyUnmet(t: Task, all: seq<Task>, k: nat)
    requires k < |t.dependencies|
    requires forall j :: 0 <= j < |all| ==> all[j].id != t.dependencies[k].id
    ensures !DependenciesMet(t, all)
  {
    assert !DependencyCompleted(all, t.dependencies[k].id);
  }

  /** A pending task, already startable, that depends on one task only is
      held back while that task is pending and released once it completes. */
  lemma DependencyReleasesOnCompletion(a: Task, b: Task, now: int)
    requires a.id != b.id && a.state == Pending
    requires b.state == Pending && StartReached(b, now)
    requires |b.dependencies| == 1 && b.dependencies[0].id == a.id
    ensures !Eligible(b, [a, b], now)
    ensures Eligible(b, [a.(state := Completed), b], now)
  {
    assert LastIndexOf([a, b], a.id) == Some(0);
    assert LastIndexOf([a.(state := Completed), b], a.id) == Some(0);
  }

  // ---------------------------------------------------------------------------
  // Ordering
  // ---------------------------------------------------------------------------

  ghost predicate Sorted(s: seq<Task>) {
    forall i, j :: 0 <= i < j < |s| ==> s[i].priority <= s[j].priority
  }

  /** The entries of `s` with priority `p`, in order. */
  function OfPriority(s: seq<Task>, p: int): seq<Task>
    decreases |s|
  {
    if |s| == 0 then []
    else (if s[0].priority == p then [s[0]] else []) + OfPriority(s[1..], p)
  }

  /** Inserts `x` in front of the first entry whose priority is not smaller. */
  function InsertByPriority(x: Task, s: seq<Task>): seq<Task>
    decreases |s|
  {
    if |s| == 0 || x.priority <= s[0].priority then [x] + s
    else [s[0]] + InsertByPriority(x, s[1..])
  }

  /** Insertion adds exactly `x`. */
  lemma {:induction false} InsertPermutes(x: Task, s: seq<Task>)
    ensures multiset(InsertByPriority(x, s)) == multiset(s) + multiset{x}
    decreases |s|
  {
    if |s| > 0 && x.priority > s[0].priority {
      InsertPermutes(x, s[1..]);
      assert s == [s[0]] + s[1..];
    }
  }

  /** Insertion keeps a sorted list sorted. */
  lemma {:induction false} InsertKeepsSorted(x: Task, s: seq<Task>)
    requires Sorted(s)
    ensures Sorted(InsertByPriority(x, s))
    decreases |s|
  {
    if |s| > 0 && x.priority > s[0].priority {
      var rest := InsertByPriority(x, s[1..]);
      assert Sorted(s[1..]);
      InsertKeepsSorted(x, s[1..]);
      InsertPermutes(x, s[1..]);
      forall i | 0 <= i < |rest|
        ensures s[0].priority <= rest[i].priority
      {
        assert rest[i] in multiset(rest);
        if rest[i] != x {
          assert rest[i] in multiset(s[1..]);
          var j :| 0 <= j < |s[1..]| && s[1..][j] == rest[i];
          assert s[1..][j] == s[j + 1];
        }
      }
      PrependKeepsSorted(s[0], rest);
    } else {
      PrependKeepsSorted(x, s);
    }
  }

  lemma PrependKeepsSorted(h: Task, rest: seq<Task>)
    requires Sorted(rest)
    requires forall i :: 0 <= i < |rest| ==> h.priority <= rest[i].priority
    ensures Sorted([h] + rest)
  {
    var r := [h] + rest;
    forall i, j | 0 <= i < j < |r|
      ensures r[i].priority <= r[j].priority
    {
      if i > 0 {
        assert r[i] == rest[i - 1] && r[j] == rest[j - 1];
      }
    }
  }

  /** Stable sort by ascending priority (insertion sort). */
  function SortByPriority(s: seq<Task>): seq<Task>
    decreases |s|
  {
    if |s| == 0 then []
    else InsertByPriority(s[0], SortByPriority(s[1..]))
  }

  /** The sort returns a sorted permutation of its input. */
  lemma {:induction false} SortSpec(s: seq<Task>)
    ensures multiset(SortByPriority(s)) == multiset(s)
    ensures Sorted(SortByPriority(s))
    decreases |s|
  {
    if |s| > 0 {
      SortSpec(s[1..]);
      InsertPermutes(s[0], SortByPriority(s[1..]));
      InsertKeepsSorted(s[0], SortByPriority(s[1..]));
      assert s == [s[0]] + s[1..];
    }
  }

  lemma {:induction false} OfPriorityConcat(a: seq<Task>, b: seq<Task>, p: int)
    ensures OfPriority(a + b, p) == OfPriority(a, p) + OfPriority(b, p)
    decreases |a|
  {
    if |a| == 0 {
      assert a + b == b;
    } else {
      var ab := a + b;
      assert ab[0] == a[0] && ab[1..] == a[1..] + b;
      OfPriorityConcat(a[1..], b, p);
      var h := if a[0].priority == p then [a[0]] else [];
      assert OfPriority(ab, p) == h + OfPriority(a[1..] + b, p);
      assert OfPriority(a, p) == h + OfPriority(a[1..], p);
      assert h + (OfPriority(a[1..], p) + OfPriority(b, p))
          == (h + OfPriority(a[1..], p)) + OfPriority(b, p);
    }
  }

  lemma {:induction false} InsertOfPriority(x: Task, s: seq<Task>, p: int)
    ensures OfPriority(InsertByPriority(x, s), p)
         == (if x.priority == p then [x] else []) + OfPriority(s, p)
    decreases |s|
  {
    OfPriorityConcat([x], s, p);
    if |s| > 0 && x.priority > s[0].priority {
      InsertOfPriority(x, s[1..], p);
      OfPriorityConcat([s[0]], InsertByPriority(x, s[1..]), p);
      OfPriorityConcat([s[0]], s[1..], p);
      assert s == [s[0]] + s[1..];
    }
  }

  /** The sort is stable: the entries of each priority come out in the order
      they went in. */
  lemma {:induction false} SortIsStable(s: seq<Task>, p: int)
    ensures OfPriority(SortByPriority(s), p) == OfPriority(s, p)
    decreases |s|
  {
    if |s| > 0 {
      SortIsStable(s[1..], p);
      InsertOfPriority(s[0], SortByPriority(s[1..]), p);
    }
  }

  /** Dropping a tail keeps a prefix of each priority's entries. */
  lemma {:induction false} OfPriorityOfPrefix(s: seq<Task>, n: nat, p: int)
    requires n <= |s|
    ensures OfPriority(s[..n], p) <= OfPriority(s, p)
    decreases n
  {
    if n > 0 {
      OfPriorityOfPrefix(s[1..], n - 1, p);
      assert s[..n][1..] == s[1..][..n - 1];
    }
  }

  // ---------------------------------------------------------------------------
  // The tick
  // ---------------------------------------------------------------------------

  /** The eligible tasks of the snapshot in dispatch order. */
  function Plan(all: seq<Task>, now: int): seq<Task> {
    SortByPriority(EligibleTasks(all, now))
  }

  /** Dispatches `plan[k..]` in order, asking for capacity before each one and
      stopping at the first refusal. */
  function Fill(plan: seq<Task>, capacity: nat -> bool, k: nat): (r: seq<string>)
    requires k <= |plan|
    ensures |r| <= |plan| - k
    ensures forall i :: 0 <= i < |r| ==> r[i] == plan[k + i].id && capacity(k + i)
    ensures k + |r| < |plan| ==> !capacity(k + |r|)
    decreases |plan| - k
  {
    if k == |plan| || !capacity(k) then []
    else [plan[k].id] + Fill(plan, capacity, k + 1)
  }

  /** One scheduling pass over a snapshot: the ids handed to the engine, in
      plan order, each asked for with capacity granted; the pass stops at the
      first refusal. */
  function Tick(all: seq<Task>, now: int, capacity: nat -> bool): (r: seq<string>)
    ensures |r| <= |Plan(all, now)|
    ensures forall i :: 0 <= i < |r| ==> r[i] == Plan(all, now)[i].id && capacity(i)
    ensures |r| < |Plan(all, now)| ==> !capacity(|r|)
  {
    Fill(Plan(all, now), capacity, 0)
  }

  /** Every id a pass dispatches belongs to an eligible entry of the snapshot. */
  lemma TickDispatchesEligible(all: seq<Task>, now: int, capacity: nat -> bool)
    ensures forall i :: 0 <= i < |Tick(all, now, capacity)| ==>
      exists t :: t in all && Eligible(t, all, now) && t.id == Tick(all, now, capacity)[i]
  {
    PlanIsEligible(all, now);
    var r := Tick(all, now, capacity);
    var plan := Plan(all, now);
    forall i | 0 <= i < |r|
      ensures exists t :: t in all && Eligible(t, all, now) && t.id == r[i]
    {
      assert plan[i] in all && Eligible(plan[i], all, now) && plan[i].id == r[i];
    }
  }

  /** Every planned task is an eligible entry of the snapshot. */
  lemma PlanIsEligible(all: seq<Task>, now: int)
    ensures forall i :: 0 <= i < |Plan(all, now)| ==>
      Plan(all, now)[i] in all && Eligible(Plan(all, now)[i], all, now)
  {
    var plan := Plan(all, now);
    var el := EligibleTasks(all, now);
    SortSpec(el);
    EligibleInSpec(all, all, now);
    forall i | 0 <= i < |plan|
      ensures plan[i] in all && Eligible(plan[i], all, now)
    {
      assert plan[i] in multiset(plan);
      assert plan[i] in multiset(el);
      var j :| 0 <= j < |el| && el[j] == plan[i];
    }
  }

  /** Dispatch order within a pass: priorities never decrease, and tasks of
      equal priority are dispatched in snapshot order. */
  lemma DispatchOrder(all: seq<Task>, now: int, capacity: nat -> bool, p: int)
    ensures var sent := Plan(all, now)[..|Tick(all, now, capacity)|];
            && Sorted(sent)
            && OfPriority(sent, p) <= OfPriority(EligibleTasks(all, now), p)
  {
    var plan := Plan(all, now);
    var n := |Tick(all, now, capacity)|;
    OfPriorityOfPrefix(plan, n, p);
    SortIsStable(EligibleTasks(all, now), p);
    SortSpec(EligibleTasks(all, now));
  }

  /** With capacity never refused, a pass dispatches every eligible task of
      the snapshot, each as often as it occurs there, and nothing else. */
  lemma UnlimitedCapacityDispatchesAll(all: seq<Task>, now: int, capacity: nat -> bool)
    requires forall k :: capacity(k)
    ensures |Tick(all, now, capacity)| == |Plan(all, now)|
    ensures forall t :: multiset(Plan(all, now))[t] == if Eligible(t, all, now) then multiset(all)[t] else 0
  {
    SortSpec(EligibleTasks(all, now));
    EligibleInSpec(all, all, now);
  }

  /** Priorities 5, 1, 3, all eligible, go out as 1, 3, 5 when capacity is
      never refused. */
  lemma PriorityOrderExample(low: Task, high: Task, mid: Task, now: int, capacity: nat -> bool)
    requires low.priority == 5 && high.priority == 1 && mid.priority == 3
    requires Eligible(low, [low, high, mid], now)
    requires Eligible(high, [low, high, mid], now)
    requires Eligible(mid, [low, high, mid], now)
    requires forall k :: capacity(k)
    ensures Tick([low, high, mid], now, capacity) == [high.id, mid.id, low.id]
  {
    PlanExample(low, high, mid, now);
    var r := Tick([low, high, mid], now, capacity);
    assert |r| == 3 by {
      assert capacity(|r|);
    }
    assert r[0] == high.id && r[1] == mid.id && r[2] == low.id;
  }

  lemma PlanExample(low: Task, high: Task, mid: Task, now: int)
    requires low.priority == 5 && high.priority == 1 && mid.priority == 3
    requires Eligible(low, [low, high, mid], now)
    requires Eligible(high, [low, high, mid], now)
    requires Eligible(mid, [low, high, mid], now)
    ensures Plan([low, high, mid], now) == [high, mid, low]
  {
    var all := [low, high, mid];
    assert forall i :: 0 <= i < |all| ==> Eligible(all[i], all, now);
    AllEligibleKept(all, now);
    SortExample(low, high, mid);
  }

  lemma AllEligibleKept(all: seq<Task>, now: int)
    requires forall i :: 0 <= i < |all| ==> Eligible(all[i], all, now)
    ensures EligibleTasks(all, now) == all
  {
    KeepEligible(all, all, now);
  }

  lemma {:induction false} KeepEligible(s: seq<Task>, all: seq<Task>, now: int)
    requires forall i :: 0 <= i < |s| ==> Eligible(s[i], all, now)
    ensures EligibleIn(s, all, now) == s
    decreases |s|
  {
    if |s| > 0 {
      KeepEligible(s[1..], all, now);
    }
  }

  lemma InsertInFront(x: Task, s: seq<Task>)
    requires |s| == 0 || x.priority <= s[0].priority
    ensures InsertByPriority(x, s) == [x] + s
  {
  }

  lemma InsertPast(x: Task, s: seq<Task>)
    requires |s| > 0 && x.priority > s[0].priority
    ensures InsertByPriority(x, s) == [s[0]] + InsertByPriority(x, s[1..])
  {
  }

  lemma SortCons(s: seq<Task>)
    requires |s| > 0
    ensures SortByPriority(s) == InsertByPriority(s[0], SortByPriority(s[1..]))
  {
  }

  lemma SortExample(low: Task, high: Task, mid: Task)
    requires low.priority == 5 && high.priority == 1 && mid.priority == 3
    ensures SortByPriority([low, high, mid]) == [high, mid, low]
  {
    assert [low, high, mid][1..] == [high, mid];
    SortCons([low, high, mid]);
    SortPairExample(high, mid);
    InsertLastExample(low, high, mid);
  }

  lemma SortPairExample(high: Task, mid: Task)
    requires high.priority < mid.priority
    ensures SortByPriority([high, mid]) == [high, mid]
  {
    assert [high, mid][1..] == [mid] && [mid][1..] == [];
    SortCons([mid]);
    InsertInFront(mid, []);
    SortCons([high, mid]);
    InsertInFront(high, [mid]);
  }

  lemma InsertLastExample(low: Task, high: Task, mid: Task)
    requires high.priority < low.priority && mid.priority < low.priority
    ensures InsertByPriority(low, [high, mid]) == [high, mid, low]
  {
    assert [high, mid][1..] == [mid] && [mid][1..] == [];
    InsertPast(low, [high, mid]);
    InsertPast(low, [mid]);
    InsertInFront(low, []);
  }

  // ---------------------------------------------------------------------------
  // Start and stop
  // ---------------------------------------------------------------------------

  /** `subscriptions` counts live subscriptions to the snapshot stream. */
  datatype Scheduler = Scheduler(running: bool, subscriptions: nat)

  const Stopped: Scheduler := Scheduler(false, 0)

  /** Starting a running scheduler does nothing; otherwise it subscribes once. */
  function Start(s: Scheduler): (r: Scheduler)
    ensures r.running
    ensures s.running ==> r == s
    ensures !s.running ==> r.subscriptions == s.subscriptions + 1
  {
    if s.running then s else Scheduler(true, s.subscriptions + 1)
  }

  /** Stopping ends every subscription; stopping a stopped scheduler does nothing. */
  function Stop(s: Scheduler): (r: Scheduler)
    ensures !r.running
    ensures !s.running ==> r == s
    ensures s.running ==> r.subscriptions == 0
  {
    if !s.running then s else Scheduler(false, 0)
  }

  function Repeat(x: seq<string>, n: nat): seq<string>
    decreases n
  {
    if n == 0 then [] else x + Repeat(x, n - 1)
  }

  /** What one snapshot emission dispatches: every live subscription runs a
      pass, and a pass on a stopped scheduler does nothing. */
  function OnSnapshot(s: Scheduler, all: seq<Task>, now: int, capacity: nat -> bool): seq<string> {
    if !s.running then [] else Repeat(Tick(all, now, capacity), s.subscriptions)
  }

  datatype Command = StartCmd | StopCmd

  function Run(s: Scheduler, cmds: seq<Command>): Scheduler
    decreases |cmds|
  {
    if |cmds| == 0 then s
    else Run(if cmds[0] == StartCmd then Start(s) else Stop(s), cmds[1..])
  }

  /** One live subscription while running, none while stopped. */
  ghost predicate SingleSubscription(s: Scheduler) {
    s.subscriptions == if s.running then 1 else 0
  }

  lemma {:induction false} RunKeepsSingleSubscription(s: Scheduler, cmds: seq<Command>)
    requires SingleSubscription(s)
    ensures SingleSubscription(Run(s, cmds))
    decreases |cmds|
  {
    if |cmds| > 0 {
      RunKeepsSingleSubscription(if cmds[0] == StartCmd then Start(s) else Stop(s), cmds[1..]);
    }
  }

  /** Whatever sequence of starts and stops came before, a snapshot is
      processed by exactly one pass while running and by none while stopped. */
  lemma SnapshotProcessedOnce(cmds: seq<Command>, all: seq<Task>, now: int, capacity: nat -> bool)
    ensures var s := Run(Stopped, cmds);
            OnSnapshot(s, all, now, capacity) == if s.running then Tick(all, now, capacity) else []
  {
    RunKeepsSingleSubscription(Stopped, cmds);
    var s := Run(Stopped, cmds);
    if s.running {
      assert Repeat(Tick(all, now, capacity), 1) == Tick(all, now, capacity) + [];
    }
  }

  /** A stop followed by a start resumes processing with one pass per snapshot. */
  lemma StopThenStartResumes(s: Scheduler, all: seq<Task>, now: int, capacity: nat -> bool)
    requires SingleSubscription(s)
    ensures OnSnapshot(Stop(s), all, now, capacity) == []
    ensures OnSnapshot(Start(Stop(s)), all, now, capacity) == Tick(all, now, capacity)
  {
    assert Repeat(Tick(all, now, capacity), 1) == Tick(all, now, capacity) + [];
  }
}
